=== FILE: README.md ===
# Antaeus billing core in Dafny

A model of the billing core of the Antaeus invoice service, with the properties proved about it.
Antaeus is a Kotlin service that charges customers' monthly invoices through an external payment provider.
The model covers these parts:

- **`retry`** (`resiliency.kt`): a bounded retry combinator.
  - It re-invokes a block only while the block throws NetworkException, up to `maxRetries` invocations.
  - It sleeps between invocations. A negative wait makes the first sleep throw IllegalArgumentException, which `retry` passes on.
  - Once the invocations are exhausted, it throws ExternalServiceNotAvailableException instead.
- **`BillingService`**: one billing pass.
  - It fetches the PENDING and FAILED invoices and processes each in turn.
  - For each invoice it probes the customer's lock, takes it, charges the provider, maps the answer or the exception to a status change, a notification or a collaborator handler, and releases the lock.
  - A NetworkException sends the charge back through `retry`.
  - A counter of provider-unavailable failures is kept and never reset.
- **`InvoiceBillingScheduler`**: the delay until the next pass.
  - On the first of the month the delay is half an hour.
  - On the second, the check runs first.
  - On any other day, the delay is the whole number of days from today to the first of the next month. It is measured between the two dates pinned to 01:00, but it is armed from the moment `schedule()` runs, so the task fires on that first at the current local time of day, as long as the zone's UTC offset does not change before then.
  - The model also covers `schedule()`, which arms the billing task or logs the failure, and `chargeMonthlyInvoicesTask`, which runs a pass and then schedules the next one.
- **`LockingService`** and **`LockDal`**: a lock table of customer ids.
  - Insert adds a row, delete removes all of a customer's rows, and select returns the first row.
  - Each operation runs inside `retry`, and every failure becomes LockException.
- **`AntaeusDal`**: the invoice and customer tables, as maps from id to record.

## How the model is built

| Dafny file | module | models |
|---|---|---|
| `exceptions.dfy` | `Exceptions` | exception kinds, `Outcome` (returned / threw), `Option` (nullable) |
| `models.dfy` | `Models` | `Invoice`, `InvoiceStatus`, `Money`, `Customer`, `Lock` |
| `resiliency.dfy` | `Resiliency` | `retry` |
| `lock_dal.dfy` | `LockDal` | `LockDal.kt`, and the lock operations of `AntaeusDal.kt` |
| `antaeus_dal.dfy` | `AntaeusDal` | the invoice and customer operations of `AntaeusDal.kt` |
| `locking_service.dfy` | `LockingService` | `LockingService.kt` |
| `billing_service.dfy` | `BillingService` | `BillingService.kt` |
| `billing_properties.dfy` | `BillingProperties` | properties relating several steps of a pass |
| `calendar.dfy` | `Calendar` | the parts of `java.time.LocalDateTime` and `Duration` the scheduler uses |
| `scheduler.dfy` | `InvoiceBillingScheduler` | `calculateSchedulerDelay`, `schedule`, `chargeMonthlyInvoicesTask` |

Exceptions are values: a call `Returned` a value or `Threw` an `Exn`.
The outside world is passed in as oracles:

- The block given to `retry` is `block: nat -> Outcome<T>`, the outcome of its i-th invocation.
- The payment provider is `env.gateway(k)`, what the k-th `charge` call of the run returns or throws.
- The lock table's database is `env.lockStore(k)`, which says whether the k-th lock-table statement completes or throws. A statement that throws changes nothing, because each runs in its own transaction.
- The clock is a parameter `now` of the scheduler functions.

The service state `Billing` holds these fields:

- the invoice map;
- the lock table;
- the counter `networkFailedChargings`;
- the cursors `gatewayCalls` and `lockStoreCalls` into the two oracles;
- an event log.

The log records every lock-service call, every `charge` call, every notification and every collaborator handler call.
It also records the warnings that are a branch's only effect: `handleLockException`, the unknown-error warning and the provider-unavailable warning.
A billing step returns the new state and the exception that escaped, if any.

Where the service's design description and the code disagree, the model follows the code:

- A CustomerNotFoundException only calls the customer handler, and a CurrencyMismatchException only calls the invoice handler. Neither handler is defined in this revision of the service. The model assumes that they write nothing to the invoice store, and the `r.state.invoices == st.invoices` of `ChargeExceptionIsDispatched` rests on that assumption.
- An exhausted retry (ExternalServiceNotAvailableException) only increments the counter; no status is set to FAILED.
- The counter is a field of the service, so it is never reset between passes.
- A LockException thrown by the release in the catch block is not caught. It ends the pass at that invoice.
- The billing task re-arms itself through `schedule()` as written. The corrected scheduling is a separate variant of the task.
- The next-month delay is the whole days between today and the first of the next month, both pinned to 01:00. It is armed from the moment `schedule()` runs, so the task fires at the local time of day `schedule()` ran, as long as the zone's UTC offset does not change before then, not at a fixed hour.
- On the second of the month the billing pass still runs: `chargeMonthlyInvoicesTask` runs it, before `schedule()`. `calculateSchedulerDelay` only adds the check.

## Model

| member | source | states |
|---|---|---|
| `Resiliency.Retry` | pleo-antaeus-core/src/main/kotlin/io/pleo/antaeus/core/utils/resiliency.kt:7-29 | With `maxRetries >= 1` the block runs between 1 and `maxRetries` times. Every sleep made lasts `waitTimeInSeconds * 1000` ms, and there is exactly one before every invocation but the first. With a negative wait the block runs only once. NetworkException never escapes. |
| `Resiliency.RetryLoop` | pleo-antaeus-core/src/main/kotlin/io/pleo/antaeus/core/utils/resiliency.kt:11-28 | The loop entered with `retries` failures already counted ends after at most `maxRetries` invocations in all, and never in NetworkException. A retry with a negative wait throws IllegalArgumentException from the sleep before invoking the block, and no sleep is recorded for it. |
| `Resiliency.RetryLoopTrace` | pleo-antaeus-core/src/main/kotlin/io/pleo/antaeus/core/utils/resiliency.kt:11-26 | From any loop entry after a network failure, every invocation but the last threw NetworkException. The last invocation either decided the result unchanged, or was a network failure: the `maxRetries`-th one becomes ExternalServiceNotAvailableException; an earlier one was followed by a negative sleep, which throws IllegalArgumentException. |
| `Resiliency.RetryTrace` | pleo-antaeus-core/src/main/kotlin/io/pleo/antaeus/core/utils/resiliency.kt:11-26 | The same trace for a whole `retry` call. A network failure ends the call before the bound only with a negative wait, after the first invocation, with IllegalArgumentException. |
| `Resiliency.RetryStopsAtFirstNonNetworkOutcome` | pleo-antaeus-core/src/main/kotlin/io/pleo/antaeus/core/utils/resiliency.kt:11-21 | Suppose the block throws NetworkException k times, with k < `maxRetries`, and then returns or throws anything else. With k = 0 or a wait of at least 0, `retry` passes that outcome on unchanged after exactly k+1 invocations. With k > 0 and a negative wait it throws IllegalArgumentException after one invocation. |
| `Resiliency.RetryExhaustion` | pleo-antaeus-core/src/main/kotlin/io/pleo/antaeus/core/utils/resiliency.kt:13-26 | Suppose the first `maxRetries` invocations all throw NetworkException. With a wait of at least 0, or `maxRetries` = 1, `retry` makes exactly `maxRetries` invocations and `maxRetries - 1` sleeps, and throws ExternalServiceNotAvailableException. With a negative wait and room for a retry, it throws IllegalArgumentException after one invocation and no sleep. |
| `Resiliency.RetryReturnsIff` | pleo-antaeus-core/src/main/kotlin/io/pleo/antaeus/core/utils/resiliency.kt:11-26 | `retry` returns a value if and only if some invocation within the first `maxRetries` returns, after nothing but network failures, and, if it is not the first invocation, the wait is not negative. |
| `LockDal.SetLock` | pleo-antaeus-data/src/main/kotlin/io/pleo/antaeus/data/LockDal.kt:12-18 | Insert adds exactly one occurrence of the customer to the table's multiset of holders, and afterwards `getLock` finds a row. |
| `LockDal.ReleaseLock` | pleo-antaeus-data/src/main/kotlin/io/pleo/antaeus/data/LockDal.kt:20-26 | Delete removes every occurrence of the customer and no other, and afterwards `getLock` finds nothing. |
| `LockDal.RowsNotOf` | pleo-antaeus-data/src/main/kotlin/io/pleo/antaeus/data/LockDal.kt:22-24 | The rows kept by the delete hold the same customers as before, minus every row of the deleted customer. |
| `LockDal.GetLock` | pleo-antaeus-data/src/main/kotlin/io/pleo/antaeus/data/LockDal.kt:27-34 | A lock is returned if and only if the customer holds a row. The returned row is in the table, is the customer's, and is the customer's earliest row. The table is not changed. |
| `LockDal.FirstRowOf` | pleo-antaeus-data/src/main/kotlin/io/pleo/antaeus/data/LockDal.kt:29-32 | `firstOrNull` over the matching rows returns a row of the table that belongs to that customer. |
| `LockDal.FirstRowOfIsFirst` | pleo-antaeus-data/src/main/kotlin/io/pleo/antaeus/data/LockDal.kt:29-32 | The row found is the earliest matching one, and nothing is found only when no row matches. |
| `LockDal.SetLockTwiceLeavesTwoRows` | pleo-antaeus-data/src/main/kotlin/io/pleo/antaeus/data/LockDal.kt:12-18 | Insert is not idempotent: two inserts without a delete leave two more rows for the customer. |
| `LockDal.ReleaseAfterSetLock` | pleo-antaeus-data/src/main/kotlin/io/pleo/antaeus/data/LockDal.kt:12-26 | A delete after an insert leaves the customer with no rows and every other customer as before. When the customer held no row before, the table's holders are restored exactly. |
| `AntaeusDal.FetchInvoice` | pleo-antaeus-data/src/main/kotlin/io/pleo/antaeus/data/AntaeusDal.kt:15-24 | The invoice stored under the id, or null if and only if the id is absent. |
| `AntaeusDal.FetchCustomer` | pleo-antaeus-data/src/main/kotlin/io/pleo/antaeus/data/AntaeusDal.kt:84-91 | The customer stored under the id, or null if and only if the id is absent. |
| `AntaeusDal.SortedIds` | pleo-antaeus-data/src/main/kotlin/io/pleo/antaeus/data/AntaeusDal.kt:36-38 | The order in which the selected rows are listed contains exactly the selected ids, strictly ascending, so each appears once. |
| `AntaeusDal.FetchInvoicesByStatus` | pleo-antaeus-data/src/main/kotlin/io/pleo/antaeus/data/AntaeusDal.kt:34-40 | An invoice is in the result if and only if it is stored under its id with a status in the set. Ids are strictly ascending, so there are no duplicates. |
| `AntaeusDal.UpdateInvoiceStatus` | pleo-antaeus-data/src/main/kotlin/io/pleo/antaeus/data/AntaeusDal.kt:76-82 | Only the status of that id changes, to the new status. Other fields and invoices are unchanged. The returned row count is 1, or 0 for an absent id, which changes nothing. |
| `AntaeusDal.UpdateInvoiceCurrency` | pleo-antaeus-data/src/main/kotlin/io/pleo/antaeus/data/AntaeusDal.kt:57-63 | Only that invoice's currency changes; its amount value and other fields and all other invoices are unchanged. The returned row count is 1 or 0. |
| `AntaeusDal.UpdateInvoice` | pleo-antaeus-data/src/main/kotlin/io/pleo/antaeus/data/AntaeusDal.kt:65-74 | Afterwards, fetching the id returns exactly the written invoice; no other row changes. An absent id changes nothing and the row count is 0. |
| `AntaeusDal.UpdateStatusThenFetchByStatus` | pleo-antaeus-data/src/main/kotlin/io/pleo/antaeus/data/AntaeusDal.kt:34-40 | After a status update, the updated invoice is fetched by a status set if and only if the new status is in it. Every other invoice is fetched exactly as before. |
| `AntaeusDal.UpdateStatusIsUndone` | pleo-antaeus-data/src/main/kotlin/io/pleo/antaeus/data/AntaeusDal.kt:76-82 | Writing back the old status restores the table exactly. |
| `AntaeusDal.UpdateCurrencyIsUndone` | pleo-antaeus-data/src/main/kotlin/io/pleo/antaeus/data/AntaeusDal.kt:57-63 | Writing back the old currency restores the table exactly, and an absent id changes nothing. |
| `LockingService.AsLockException` | pleo-antaeus-core/src/main/kotlin/io/pleo/antaeus/core/services/LockingService.kt:21-23 | Any failure, whatever its kind, becomes LockException; a returned value passes through. |
| `LockingService.SetLock` | pleo-antaeus-core/src/main/kotlin/io/pleo/antaeus/core/services/LockingService.kt:16-24 | 1 to 3 lock-table statements run. On success the insert was applied: one more row for the customer. On failure the result is LockException and the table is unchanged. |
| `LockingService.ReleaseLock` | pleo-antaeus-core/src/main/kotlin/io/pleo/antaeus/core/services/LockingService.kt:26-34 | 1 to 3 lock-table statements run. On success the delete was applied: no row left for the customer. On failure the result is LockException and the table is unchanged. Other customers' rows never change. |
| `LockingService.GetLock` | pleo-antaeus-core/src/main/kotlin/io/pleo/antaeus/core/services/LockingService.kt:36-44 | 1 to 3 lock-table statements run and the table is unchanged. On success the result is exactly the lock table's answer. On failure it is LockException. |
| `LockingService.DalRetryOutcome` | pleo-antaeus-core/src/main/kotlin/io/pleo/antaeus/core/services/LockingService.kt:17-20 | A value returned through `retry` is the lock table's answer. A first statement that completes, or that fails with anything but NetworkException, settles the call after one statement. |
| `LockingService.LockCallsAfterFirstInvocation` | pleo-antaeus-core/src/main/kotlin/io/pleo/antaeus/core/services/LockingService.kt:16-44 | For all three operations, a first statement that completes gives the table operation's result after one statement. A non-network failure gives LockException after exactly one statement, with the table unchanged. |
| `BillingService.HandleSuccessfulCharge` | pleo-antaeus-core/src/main/kotlin/io/pleo/antaeus/core/services/BillingService.kt:53-57 | The invoice becomes PAID, with exactly one "charged" notification for its customer; nothing else changes. |
| `BillingService.HandleFailedCharge` | pleo-antaeus-core/src/main/kotlin/io/pleo/antaeus/core/services/BillingService.kt:59-67 | A PENDING invoice becomes FAILED, with exactly one check-balance notification. An invoice fetched as FAILED leaves the state exactly as it was. |
| `BillingService.HandleCustomerChargeResponse` | pleo-antaeus-core/src/main/kotlin/io/pleo/antaeus/core/services/BillingService.kt:45-51 | Only that invoice's status moves, and only to PAID, or to FAILED from a fetched PENDING. At most one event is added and it is never a lock call. Locks, counter and call cursors are unchanged. |
| `BillingService.HandleChargingExceptions` | pleo-antaeus-core/src/main/kotlin/io/pleo/antaeus/core/services/BillingService.kt:69-77 | No lock call and no lock change. The counter grows by at most 1 and there are at most 3 gateway calls. Outside NetworkException, exactly one event is added and no status or counter changes. |
| `BillingService.HandleNetworkException` | pleo-antaeus-core/src/main/kotlin/io/pleo/antaeus/core/services/BillingService.kt:79-96 | 1 to 3 gateway calls and no lock call. The counter grows by at most 1, and when it grows no status changes. |
| `BillingService.GetLockStep` | pleo-antaeus-core/src/main/kotlin/io/pleo/antaeus/core/services/BillingService.kt:30 | The probe changes no lock and throws only LockException. It finds a lock if and only if the customer holds one. |
| `BillingService.SetLockStep` | pleo-antaeus-core/src/main/kotlin/io/pleo/antaeus/core/services/BillingService.kt:32 | On success, one more lock row for the customer. On failure, LockException and no change. |
| `BillingService.ReleaseLockStep` | pleo-antaeus-core/src/main/kotlin/io/pleo/antaeus/core/services/BillingService.kt:37 | On success, no lock row left for the customer and the others as before. On failure, LockException and no change. |
| `BillingService.CatchPath` | pleo-antaeus-core/src/main/kotlin/io/pleo/antaeus/core/services/BillingService.kt:39-42 | Only LockException escapes. If nothing escapes, the customer is left with no lock. Other customers' locks are unchanged. No probe is made. Outside NetworkException, no gateway call and no status change. |
| `BillingService.CatchPathReleasesLast` | pleo-antaeus-core/src/main/kotlin/io/pleo/antaeus/core/services/BillingService.kt:39-42 | The handler runs first and the release last: the last new event is the `releaseLock` of the invoice's customer, and the handler before it makes no lock call. |
| `BillingService.ReleaseAfterCharge` | pleo-antaeus-core/src/main/kotlin/io/pleo/antaeus/core/services/BillingService.kt:37-42 | The release on the normal path, with the catch block behind it: no status change, no probe, and the customer has no lock if nothing escapes. |
| `BillingService.ChargeLocked` | pleo-antaeus-core/src/main/kotlin/io/pleo/antaeus/core/services/BillingService.kt:34-42 | From the charge on: only this invoice's status moves. Only LockException escapes. At most 1 + 3 gateway calls are made. No probe is made. The customer has no lock if nothing escapes. |
| `BillingService.LockAndCharge` | pleo-antaeus-core/src/main/kotlin/io/pleo/antaeus/core/services/BillingService.kt:32-42 | From `setLock` on: the same guarantees as `ChargeLocked`. |
| `BillingService.ChargeSingleCustomerInvoice` | pleo-antaeus-core/src/main/kotlin/io/pleo/antaeus/core/services/BillingService.kt:27-43 | The first new event is the probe of this invoice's customer and no other probe follows. Only this invoice's status moves, and only LockException escapes. Other customers' locks are unchanged. At most 1 + 3 gateway calls are made. |
| `BillingService.ProbesOfOneInvoice` | pleo-antaeus-core/src/main/kotlin/io/pleo/antaeus/core/services/BillingService.kt:27-43 | One invoice probes exactly one lock: its customer's. |
| `BillingService.ProcessInvoices` | pleo-antaeus-core/src/main/kotlin/io/pleo/antaeus/core/services/BillingService.kt:23-25 | The log only grows. Invoices not in the list are unchanged and no invoice is added or removed. The counter grows by at most one per invoice. At most 4 gateway calls are made per invoice. Only LockException escapes. |
| `BillingService.PassKeepsInvoicesKeyed` | pleo-antaeus-core/src/main/kotlin/io/pleo/antaeus/core/services/BillingService.kt:23-25 | A pass over any list keeps every invoice stored under its own id. |
| `BillingService.ChargeCustomersInvoices` | pleo-antaeus-core/src/main/kotlin/io/pleo/antaeus/core/services/BillingService.kt:20-25 | PAID invoices are never touched, and every invoice stays stored under its own id. The counter never decreases. Only LockException escapes. |
| `BillingProperties.LockStepsOnHealthyStore` | pleo-antaeus-core/src/main/kotlin/io/pleo/antaeus/core/services/BillingService.kt:30-37 | When the next lock-table statement completes, probe, take and release each cost one statement and give the table's own answer or update. |
| `BillingProperties.LockStepsOnFailingStore` | pleo-antaeus-core/src/main/kotlin/io/pleo/antaeus/core/services/BillingService.kt:30-37 | When the next statement fails with anything but NetworkException, each lock step throws LockException after one statement and leaves the table unchanged. |
| `BillingProperties.LockedCustomerIsSkipped` | pleo-antaeus-core/src/main/kotlin/io/pleo/antaeus/core/services/BillingService.kt:30-38 | If `getLock` finds a lock, only the probe happens. There is no `setLock`, no charge, no `releaseLock`, no status change and no notification. |
| `BillingProperties.ProbeFindsNoLock` | pleo-antaeus-core/src/main/kotlin/io/pleo/antaeus/core/services/BillingService.kt:30-32 | A completed probe that finds no lock goes on to take the lock. |
| `BillingProperties.LockIsTaken` | pleo-antaeus-core/src/main/kotlin/io/pleo/antaeus/core/services/BillingService.kt:32-34 | A completed `setLock` goes on to the charge, with one lock row added. |
| `BillingProperties.ReleaseCompletes` | pleo-antaeus-core/src/main/kotlin/io/pleo/antaeus/core/services/BillingService.kt:37-42 | A release that completes ends the invoice with nothing escaping, on the normal path and in the catch block. |
| `BillingProperties.ChargeThenRelease` | pleo-antaeus-core/src/main/kotlin/io/pleo/antaeus/core/services/BillingService.kt:34-42 | With the lock taken: one charge call, the answer or exception handled, then a completed release. |
| `BillingProperties.UnlockedInvoiceOnHealthyStore` | pleo-antaeus-core/src/main/kotlin/io/pleo/antaeus/core/services/BillingService.kt:27-43 | An unlocked customer on a healthy lock table goes through probe, take, charge, handle and release, and nothing escapes. |
| `BillingProperties.ResponseIsAnswer` | pleo-antaeus-core/src/main/kotlin/io/pleo/antaeus/core/services/BillingService.kt:45-67 | Handling an answer equals the reference definition: true makes the invoice PAID; false makes a fetched PENDING invoice FAILED; a fetched FAILED invoice is left alone. It adds exactly the matching notifications and nothing else. |
| `BillingProperties.AnsweredInvoice` | pleo-antaeus-core/src/main/kotlin/io/pleo/antaeus/core/services/BillingService.kt:34-57 | Whatever the provider answers, on a healthy lock table, the invoice ends in the reference state. The log is probe, take, charge, the notifications for that answer, release. The lock holders are as before, there is one gateway call and the counter is unchanged. |
| `BillingProperties.ChargedInvoiceIsPaid` | pleo-antaeus-core/src/main/kotlin/io/pleo/antaeus/core/services/BillingService.kt:45-57 | A charge returning true makes the invoice PAID, with exactly one "charged" notification for the customer. The lock is taken and released, leaving the lock holders as before. |
| `BillingProperties.DeclinedInvoice` | pleo-antaeus-core/src/main/kotlin/io/pleo/antaeus/core/services/BillingService.kt:59-67 | A charge returning false makes a PENDING invoice FAILED, with exactly one check-balance notification. An already FAILED invoice keeps its status and gets no notification. |
| `BillingProperties.DispatchIsByKind` | pleo-antaeus-core/src/main/kotlin/io/pleo/antaeus/core/services/BillingService.kt:69-77 | Outside NetworkException the dispatcher adds exactly one event, chosen by kind, and changes nothing else: the customer handler with the customerId, the currency handler with the invoice, `handleLockException`, or a logged unknown error. |
| `BillingProperties.ChargeExceptionIsDispatched` | pleo-antaeus-core/src/main/kotlin/io/pleo/antaeus/core/services/BillingService.kt:39-42 | A non-network exception from the charge is dispatched once by kind. No status is written, and the lock is still released. |
| `BillingProperties.NetworkHandlerOutcome` | pleo-antaeus-core/src/main/kotlin/io/pleo/antaeus/core/services/BillingService.kt:79-96 | The retried charges are the next gateway calls. A value is handled exactly like a direct answer. ExternalServiceNotAvailableException increments the counter by exactly 1 with no status change and no notification. Any other exception is dispatched once more. |
| `BillingProperties.NetworkFailureIsRetried` | pleo-antaeus-core/src/main/kotlin/io/pleo/antaeus/core/services/BillingService.kt:81-94 | A NetworkException from the charge enters the network handler once and then releases the lock. The invoice gets more than 1 and at most 1 + 3 gateway calls. |
| `BillingProperties.FailedProbeStillReleases` | pleo-antaeus-core/src/main/kotlin/io/pleo/antaeus/core/services/BillingService.kt:39-42 | A failing `getLock` still leads to the LockException handler and a `releaseLock`. That release deletes every row of the customer, whoever inserted it. |
| `BillingProperties.FailingReleaseAbortsPass` | pleo-antaeus-core/src/main/kotlin/io/pleo/antaeus/core/services/BillingService.kt:23-42 | A LockException from the catch-block release escapes: the pass ends at that invoice. |
| `BillingProperties.PassProbesEachInvoiceOnce` | pleo-antaeus-core/src/main/kotlin/io/pleo/antaeus/core/services/BillingService.kt:23-25 | The probes of a pass follow the invoice list in order, one per invoice. If nothing escapes they cover all invoices; otherwise a non-empty prefix. |
| `BillingProperties.LockedInvoiceOnHealthyStore` | pleo-antaeus-core/src/main/kotlin/io/pleo/antaeus/core/services/BillingService.kt:30-38 | A customer that already holds a lock costs one lock statement (the probe). It changes no lock and adds no `setLock` or `releaseLock`. |
| `BillingProperties.UnlockedInvoiceOnHealthyStoreBalanced` | pleo-antaeus-core/src/main/kotlin/io/pleo/antaeus/core/services/BillingService.kt:27-43 | An unlocked customer on a healthy lock table costs exactly three lock statements. The lock holders are as before, and the one `setLock` is matched by one `releaseLock`. |
| `BillingProperties.InvoiceOnHealthyStore` | pleo-antaeus-core/src/main/kotlin/io/pleo/antaeus/core/services/BillingService.kt:27-43 | On a healthy lock table one invoice lets nothing escape and uses 1 to 3 lock statements. The lock holders are as before, and every `setLock` is matched by a `releaseLock` of the same customer. |
| `BillingProperties.HandledWithoutCharge` | pleo-antaeus-core/src/main/kotlin/io/pleo/antaeus/core/services/BillingService.kt:45-77 | A first answer that is not a NetworkException is handled without another `charge` call. |
| `BillingProperties.PassKeepsLockBalance` | pleo-antaeus-core/src/main/kotlin/io/pleo/antaeus/core/services/BillingService.kt:23-42 | When the releases succeed, a whole pass lets nothing escape and leaves the lock holders as before. Every `setLock` in the pass is matched by exactly one `releaseLock` for the same customer. |
| `BillingProperties.ChargedOnce` | pleo-antaeus-core/src/main/kotlin/io/pleo/antaeus/core/services/BillingService.kt:27-43 | An unlocked invoice whose first answer is not a NetworkException makes exactly one gateway call, logged as the one charge attempt for that invoice, and three lock statements. The lock holders are as before. |
| `BillingProperties.PassChargesEachInvoiceOnce` | pleo-antaeus-core/src/main/kotlin/io/pleo/antaeus/core/services/BillingService.kt:23-25 | With no lock held and no network failure, a pass makes one gateway call per invoice, and the charge attempts it logs are the invoices' ids in list order, each once. |
| `BillingProperties.PassFetchesChargeableInvoices` | pleo-antaeus-core/src/main/kotlin/io/pleo/antaeus/core/services/BillingService.kt:20-25 | A pass fetches exactly the stored PENDING and FAILED invoices, once, and processes that list. |
| `BillingProperties.PassProbesEachFetchedInvoiceOnce` | pleo-antaeus-core/src/main/kotlin/io/pleo/antaeus/core/services/BillingService.kt:20-25 | When nothing escapes, a pass probes the customer of each fetched invoice once, in fetch order. |
| `BillingProperties.CounterNeverDecreases` | pleo-antaeus-core/src/main/kotlin/io/pleo/antaeus/core/services/BillingService.kt:18 | The counter is never reset, so it does not decrease over consecutive passes. |
| `Calendar.DaysInMonth` | pleo-antaeus-core/src/main/kotlin/io/pleo/antaeus/core/schedulers/InvoiceBillingScheduler.kt:80-83 | Months of the ISO calendar have 28 to 31 days. February has 29 if and only if the year is a Gregorian leap year. |
| `Calendar.WithMonth` | pleo-antaeus-core/src/main/kotlin/io/pleo/antaeus/core/schedulers/InvoiceBillingScheduler.kt:81 | `withMonth` throws DateTimeException if and only if the month is outside 1..12. Otherwise it keeps the year and the time; the day is kept when it exists in the new month and is otherwise clamped to the month's last day. |
| `Calendar.WithDayOfMonth` | pleo-antaeus-core/src/main/kotlin/io/pleo/antaeus/core/schedulers/InvoiceBillingScheduler.kt:82 | `withDayOfMonth` throws if and only if the day does not exist in that month. Otherwise it changes only the day. |
| `Calendar.WithHour` | pleo-antaeus-core/src/main/kotlin/io/pleo/antaeus/core/schedulers/InvoiceBillingScheduler.kt:83 | `withHour` throws if and only if the hour is outside 0..23. Otherwise it changes only the hour. |
| `Calendar.PlusOneMonth` | pleo-antaeus-core/src/main/kotlin/io/pleo/antaeus/core/schedulers/InvoiceBillingScheduler.kt:81 | The corrected month step moves to the next month, rolling over into the next year after December. It throws only in December of the last representable year. |
| `Calendar.TruncDiv` | pleo-antaeus-core/src/main/kotlin/io/pleo/antaeus/core/schedulers/InvoiceBillingScheduler.kt:85 | `toMillis` divides with Java's truncation toward zero: for a non-negative count the quotient is the largest one whose product does not exceed it; for a negative count, the smallest one whose product is not below it. |
| `Calendar.BetweenMillis` | pleo-antaeus-core/src/main/kotlin/io/pleo/antaeus/core/schedulers/InvoiceBillingScheduler.kt:85 | `Duration.between(a, b).toMillis()` is the elapsed time from `a` to `b` in whole milliseconds, rounded toward zero: non-negative and within one millisecond below the elapsed nanoseconds when `b` is not before `a`, and the mirror image when it is. |
| `Calendar.DaysBeforeNextYear` | pleo-antaeus-core/src/main/kotlin/io/pleo/antaeus/core/schedulers/InvoiceBillingScheduler.kt:85 | The day count of `Duration.between` agrees with the leap-year rule: each year has 365 or 366 days. |
| `Calendar.MonthsFillTheYear` | pleo-antaeus-core/src/main/kotlin/io/pleo/antaeus/core/schedulers/InvoiceBillingScheduler.kt:85 | The months of a year add up to the year's length. |
| `Calendar.NextDayIsNextNumber` | pleo-antaeus-core/src/main/kotlin/io/pleo/antaeus/core/schedulers/InvoiceBillingScheduler.kt:85 | Consecutive calendar days are one day apart, across month and year ends. |
| `Calendar.BetweenSameTimeOfDay` | pleo-antaeus-core/src/main/kotlin/io/pleo/antaeus/core/schedulers/InvoiceBillingScheduler.kt:85 | Between two instants with the same time of day, the milliseconds are whole days. |
| `InvoiceBillingScheduler.ThenWithDayOfMonth` | pleo-antaeus-core/src/main/kotlin/io/pleo/antaeus/core/schedulers/InvoiceBillingScheduler.kt:82 | In the call chain, an exception thrown earlier propagates and the call is not made. |
| `InvoiceBillingScheduler.ThenWithHour` | pleo-antaeus-core/src/main/kotlin/io/pleo/antaeus/core/schedulers/InvoiceBillingScheduler.kt:83 | The same for `withHour`. |
| `InvoiceBillingScheduler.NextMonthDelay` | pleo-antaeus-core/src/main/kotlin/io/pleo/antaeus/core/schedulers/InvoiceBillingScheduler.kt:85 | A failed target date propagates its exception. A target at 01:00 with the same minute, second and nanosecond as `now` is a whole number of days ahead of `now` pinned to 01:00. |
| `InvoiceBillingScheduler.NextBillingAsWritten` | pleo-antaeus-core/src/main/kotlin/io/pleo/antaeus/core/schedulers/InvoiceBillingScheduler.kt:80-83 | The target date, built as written, is a valid date whenever it is built. |
| `InvoiceBillingScheduler.NextBilling` | pleo-antaeus-core/src/main/kotlin/io/pleo/antaeus/core/schedulers/InvoiceBillingScheduler.kt:80-83 | The target date with the year rollover is a valid date whenever it is built. |
| `InvoiceBillingScheduler.CalculateSchedulerDelayAsWritten` | pleo-antaeus-core/src/main/kotlin/io/pleo/antaeus/core/schedulers/InvoiceBillingScheduler.kt:67-86 | On day 1 the delay is 1,800,000 ms whatever the time, and no check runs. The check runs exactly once on day 2 and never on other days. The only possible failure is DateTimeException. |
| `InvoiceBillingScheduler.CalculateSchedulerDelay` | pleo-antaeus-core/src/main/kotlin/io/pleo/antaeus/core/schedulers/InvoiceBillingScheduler.kt:67-86 | The same guarantees for the corrected calculation. |
| `InvoiceBillingScheduler.ScheduleWith` | pleo-antaeus-core/src/main/kotlin/io/pleo/antaeus/core/schedulers/InvoiceBillingScheduler.kt:49-57 | The billing task is armed with the computed delay if and only if the calculation returned. Otherwise the exception is logged and nothing is armed. |
| `InvoiceBillingScheduler.ScheduleAsWritten` | pleo-antaeus-core/src/main/kotlin/io/pleo/antaeus/core/schedulers/InvoiceBillingScheduler.kt:49-57 | `schedule()` as written: on the 1st the task is armed for 30 minutes later; on any other day before December, for the whole days left in the month, between 1 and 31, so that it fires on the first of the next month at the current time of day (while the UTC offset stays the same); on any other day of December nothing is armed and the DateTimeException is logged. The check runs only on the 2nd. |
| `InvoiceBillingScheduler.Schedule` | pleo-antaeus-core/src/main/kotlin/io/pleo/antaeus/core/schedulers/InvoiceBillingScheduler.kt:49-57 | `schedule()` with the year rollover: every day but the 1st arms the task for the whole days left in the month, between 1 and 31, December included, so that it fires on the first of the next month at the current time of day (while the UTC offset stays the same). Only December of the last representable year logs the DateTimeException instead. |
| `InvoiceBillingScheduler.ChargeMonthlyInvoicesTask` | pleo-antaeus-core/src/main/kotlin/io/pleo/antaeus/core/schedulers/InvoiceBillingScheduler.kt:31-34 | Each firing runs one pass and then exactly one `schedule()` as written, unless the pass threw, and then it was LockException. The pass leaves every invoice stored under its own id. |
| `InvoiceBillingScheduler.ChargeMonthlyInvoicesTaskCorrected` | pleo-antaeus-core/src/main/kotlin/io/pleo/antaeus/core/schedulers/InvoiceBillingScheduler.kt:31-34 | The same firing with the corrected `schedule()`: the same pass, then the corrected scheduling unless the pass threw. |
| `InvoiceBillingScheduler.NextMonthRuleBeforeDecember` | pleo-antaeus-core/src/main/kotlin/io/pleo/antaeus/core/schedulers/InvoiceBillingScheduler.kt:80-85 | On days other than 1, before December, the delay is (days in month − day + 1) × 86,400,000 ms. It is positive and at most 31 days. |
| `InvoiceBillingScheduler.DecemberIsNotRearmed` | pleo-antaeus-core/src/main/kotlin/io/pleo/antaeus/core/schedulers/InvoiceBillingScheduler.kt:31-85 | In December, on days other than 1, a firing whose pass completes calls `schedule()`; `withMonth(13)` throws DateTimeException, which is logged, and nothing is armed. |
| `InvoiceBillingScheduler.CorrectedDecember` | pleo-antaeus-core/src/main/kotlin/io/pleo/antaeus/core/schedulers/InvoiceBillingScheduler.kt:80-85 | With the year rollover, a December day waits the 31 − day + 1 whole days up to 1 January. |
| `InvoiceBillingScheduler.CorrectedTaskRearmsInDecember` | pleo-antaeus-core/src/main/kotlin/io/pleo/antaeus/core/schedulers/InvoiceBillingScheduler.kt:31-85 | With the year rollover, a December firing whose pass completes re-arms the task with 31 − day + 1 whole days, so that it fires on 1 January. |
| `InvoiceBillingScheduler.FiresAtCurrentTimeOfDay` | pleo-antaeus-core/src/main/kotlin/io/pleo/antaeus/core/schedulers/InvoiceBillingScheduler.kt:49-85 | Before December, on any day but the 1st, the instant at which the armed delay ends, on a timeline without time zones, is the first of the next month at the time of day `schedule()` ran. It falls in the hour 01 of that first exactly when `schedule()` ran in the hour 01. |
| `InvoiceBillingScheduler.CorrectedFiresAtCurrentTimeOfDay` | pleo-antaeus-core/src/main/kotlin/io/pleo/antaeus/core/schedulers/InvoiceBillingScheduler.kt:49-85 | With the year rollover, on a December day but the 1st, the armed delay ends, on a timeline without time zones, on 1 January of the next year at the time of day `schedule()` ran. |
| `Calendar.ShiftByWholeDays` | pleo-antaeus-core/src/main/kotlin/io/pleo/antaeus/core/schedulers/InvoiceBillingScheduler.kt:85 | An instant moved by a whole number of days in milliseconds keeps its time of day and moves its date by that many day numbers. |
| `InvoiceBillingScheduler.CorrectedDelayRunsToNextMonth` | pleo-antaeus-core/src/main/kotlin/io/pleo/antaeus/core/schedulers/InvoiceBillingScheduler.kt:80-85 | With the year rollover, every day but the first waits the whole days left in the month, up to the first of the next month, December included. The wait is positive and at most 31 days. Only December of the last representable year fails. |
| `InvoiceBillingScheduler.CorrectionAgreesBeforeDecember` | pleo-antaeus-core/src/main/kotlin/io/pleo/antaeus/core/schedulers/InvoiceBillingScheduler.kt:80-85 | Before December the corrected calculation is exactly the one as written. |
| `InvoiceBillingScheduler.FirstOfMonthRepeatsEveryHalfHour` | pleo-antaeus-core/src/main/kotlin/io/pleo/antaeus/core/schedulers/InvoiceBillingScheduler.kt:31-34 | On the first of the month every completed pass re-arms the billing task for 30 minutes later, without running the check. |

## Left out

- Executor, threads and `stop()` are left out because they are concurrency. The check-then-set race between `getLock` and `setLock` needs two concurrent passes, which a sequential model cannot show.
- `Thread.sleep` becomes a recorded sleep in `RetryRun.sleeps`; no time passes.
- `LocalDateTime.now()` is a parameter. Both reads in `calculateSchedulerDelay` are taken to return the same instant.
- Time zones are not modelled: a local date-time is a point on one uniform timeline (`Calendar.EpochNanos`), while the executor waits real elapsed time.
- `checkIfFailedOrPendingInvoicesExist` has an empty body. Only the number of times it runs is recorded.
- SQL, the Exposed transactions and the table mappings are not modelled. The tables are maps, and the lock table is a sequence of rows.
- The collaborators `fetchInvoicesByStatuses`, `handleCustomerNotFoundException` and `handleCurrencyMismatchException` are not defined in the service classes. They are modelled as the pass's fetch and as logged handler calls that write nothing. `InvoiceService.kt`, `CustomerService.kt` and `EmailService.kt` are not part of this model.
- Notifications and warnings are events in a log. Their message text is not modelled. The warning that `handleFailedCharge` always logs is not recorded, because it is not the branch's only effect.
- Money amounts are opaque: the `BigDecimal` value is an integer that is only ever copied.
- `fetchInvoices`, `createInvoice`, `fetchCustomers` and `createCustomer` of `AntaeusDal.kt` are outside the billing core and are not modelled.
- The lock operations of `AntaeusDal.kt` (lines 112-134) are the same statements as those of `LockDal.kt`. Both are modelled by the `LockDal` module.
- The Kotlin `Int` counter and Java `long` millisecond values are unbounded integers here. The delays are below 32 days in milliseconds, so they cannot overflow.
- A database failure inside `handleCustomerChargeResponse` is not modelled: status updates always complete.
- `Resiliency.Retry`: requires `maxRetries >= 1`. With `maxRetries <= 0` and a block that keeps throwing NetworkException, the source's 32-bit `Int` counter passes the bound, wraps around, and meets it only after about 2^32 invocations. That behaviour is not modelled.
- `Resiliency.Retry`: the `InterruptedException` that `Thread.sleep` can throw is not modelled.
- `AntaeusDal.FetchInvoicesByStatus`: returns the invoices in ascending id order. The source's query does not fix an order, so this is one admissible order.
- `AntaeusDal.SortedIds`: the same choice of order.
- `LockDal.GetLock`: returns the customer's earliest row. The query has no ORDER BY, so when a customer has several rows the source does not fix which one comes back. The earliest is one admissible choice.
- `InvoiceBillingScheduler.FiresAtCurrentTimeOfDay`: treats local date-times as one uniform timeline. The task keeps the local time of day only when the default zone's UTC offset does not change before the first; across a daylight-saving change the elapsed-time delay fires an hour off (in Europe/Copenhagen, armed at 2024-03-15T10:00 it fires at 2024-04-01T11:00).
- `InvoiceBillingScheduler.CorrectedFiresAtCurrentTimeOfDay`: the same uniform timeline. The task keeps the local time of day on 1 January only when the zone's UTC offset does not change before then.
- `BillingProperties.PassKeepsLockBalance`: assumes every lock-table statement of the pass completes, matching "when releases succeed"; a failing store is covered by `FailedProbeStillReleases` and `FailingReleaseAbortsPass`.
- `BillingProperties.PassChargesEachInvoiceOnce`: assumes a healthy lock table, no lock held and no NetworkException from the provider. With NetworkException an invoice gets up to 1 + 3 calls (`NetworkFailureIsRetried`).
- `BillingProperties.NetworkFailureIsRetried`: states the handler equation and the call bounds. What the handler does with each retry outcome is stated separately by `NetworkHandlerOutcome`.
- The retry counts asserted by `BillingServiceTest.kt` and the scheduler test's mocked delay belong to a different revision of the service and are not stated.

## Findings

| source | as written | input that shows it | evidently intended | confidence | as-written member | corrected member |
|---|---|---|---|---|---|---|
| pleo-antaeus-core/src/main/kotlin/io/pleo/antaeus/core/schedulers/InvoiceBillingScheduler.kt:80-83 | The target month is `withMonth(currentDate.month.value + 1)`, with no change of year. In December that is `withMonth(13)`, which throws DateTimeException. `schedule()` catches and logs it and arms nothing, so no pass runs again until the process restarts and `main` calls `schedule()` anew (pleo-antaeus-app/src/main/kotlin/io/pleo/antaeus/app/AntaeusApp.kt:71). | any December day but the 1st, e.g. 2024-12-15T10:00 | the first of January of the next year (`plusMonths(1)`), i.e. a delay of 17 whole days in that example, which fires on 1 January at 10:00 when the UTC offset is unchanged | not executed | `InvoiceBillingScheduler.DecemberIsNotRearmed` | `InvoiceBillingScheduler.CorrectedTaskRearmsInDecember` |

=== FILE: antaeus_dal.dfy ===
/** The invoice and customer operations of `AntaeusDal.kt`, over abstract
    tables: a map from primary key to record. The UPDATE statements return
    the number of rows they changed, which is 1 or 0 since `id` is the key.
    Its lock operations are the same statements as `LockDal.kt` and are
    modelled by the `LockDal` module. */
module AntaeusDal {
  import opened Exceptions
  import opened Models

  type InvoiceTable = map<int, Invoice>
  type CustomerTable = map<int, Customer>

  /** Primary-key discipline: each record is stored under its own id. */
  predicate InvoicesKeyed(m: InvoiceTable) {
    forall id :: id in m ==> m[id].id == id
  }

  predicate CustomersKeyed(m: CustomerTable) {
    forall id :: id in m ==> m[id].id == id
  }

  /** The table after an UPDATE, and the row count it returned. */
  datatype Updated = Updated(table: InvoiceTable, count: int)

  /** `fetchInvoice(id)`: the invoice with that id, or null. */
  function FetchInvoice(m: InvoiceTable, id: int): (r: Option<Invoice>)
    requires InvoicesKeyed(m)
    ensures r.Some? <==> id in m
    ensures r.Some? ==> r.value.id == id && r.value in m.Values
  {
    if id in m then Some(m[id]) else None
  }

  /** `fetchCustomer(id)`: the customer with that id, or null. */
  function FetchCustomer(m: CustomerTable, id: int): (r: Option<Customer>)
    requires CustomersKeyed(m)
    ensures r.Some? <==> id in m
    ensures r.Some? ==> r.value.id == id && r.value in m.Values
  {
    if id in m then Some(m[id]) else None
  }

  /** A smallest element of a non-empty finite set of ids exists. */
  lemma {:induction false} MinimumExists(s: set<int>)
    requires s != {}
    ensures exists m :: m in s && forall x :: x in s ==> m <= x
    decreases |s|
  {
    if forall y :: y !in s {
      assert false;
    }
    var y :| y in s;
    var others := s - {y};
    forall x | x in s && x != y ensures x in others {
    }
    if others == {} {
      assert forall x :: x in s ==> y <= x;
    } else {
      MinimumExists(others);
      var m :| m in others && forall x :: x in others ==> m <= x;
      var least := if y < m then y else m;
      assert least in s && forall x :: x in s ==> least <= x;
    }
  }

  predicate Ascending(r: seq<int>) {
    forall i, j :: 0 <= i < j < |r| ==> r[i] < r[j]
  }

  /** Putting the minimum of a set in front of the rest, in ascending order,
      lists the whole set in ascending order. */
  lemma PrependMinimum(s: set<int>, m: int, rest: seq<int>)
    requires m in s && forall x :: x in s ==> m <= x
    requires forall x :: x in rest <==> x in s - {m}
    requires Ascending(rest)
    ensures forall x :: x in [m] + rest <==> x in s
    ensures Ascending([m] + rest)
  {
    var r := [m] + rest;
    forall i, j | 0 <= i < j < |r| ensures r[i] < r[j] {
      assert r[j] == rest[j - 1];
      assert rest[j - 1] in rest;
      if i > 0 {
        assert r[i] == rest[i - 1];
      }
    }
  }

  /** The ids of `s` in ascending order, the order in which the table is scanned. */
  function SortedIds(s: set<int>): (r: seq<int>)
    ensures forall x :: x in r <==> x in s
    ensures Ascending(r)
    decreases |s|
  {
    if s == {} then []
    else
      MinimumExists(s);
      var m :| m in s && forall x :: x in s ==> m <= x;
      var rest := SortedIds(s - {m});
      PrependMinimum(s, m, rest);
      [m] + rest
  }

  /** The records stored under `ids`, in the order of `ids`. */
  function Lookup(m: InvoiceTable, ids: seq<int>): (r: seq<Invoice>)
    requires forall i :: 0 <= i < |ids| ==> ids[i] in m
    ensures |r| == |ids|
    ensures forall i :: 0 <= i < |ids| ==> r[i] == m[ids[i]]
  {
    if ids == [] then [] else [m[ids[0]]] + Lookup(m, ids[1..])
  }

  /** `fetchInvoicesByStatus(statuses)`: every stored invoice whose status is
      in `statuses`, each once, in ascending id order. */
  function FetchInvoicesByStatus(m: InvoiceTable, statuses: set<InvoiceStatus>): (r: seq<Invoice>)
    requires InvoicesKeyed(m)
    ensures forall inv: Invoice :: inv in r <==> inv.id in m && m[inv.id] == inv && inv.status in statuses
    ensures forall i, j :: 0 <= i < j < |r| ==> r[i].id < r[j].id
  {
    var ids := SortedIds(set id | id in m && m[id].status in statuses);
    assert forall i :: 0 <= i < |ids| ==> ids[i] in m by {
      forall i | 0 <= i < |ids| ensures ids[i] in m {
        assert ids[i] in ids;
      }
    }
    var r := Lookup(m, ids);
    assert forall inv :: inv in r ==> inv.id in m && m[inv.id] == inv && inv.status in statuses by {
      forall inv | inv in r ensures inv.id in m && m[inv.id] == inv && inv.status in statuses {
        var i :| 0 <= i < |r| && r[i] == inv;
        assert ids[i] in ids;
      }
    }
    assert forall inv: Invoice :: inv.id in m && m[inv.id] == inv && inv.status in statuses ==> inv in r by {
      forall inv: Invoice | inv.id in m && m[inv.id] == inv && inv.status in statuses ensures inv in r {
        assert inv.id in ids;
        var i :| 0 <= i < |ids| && ids[i] == inv.id;
        assert r[i] == inv;
      }
    }
    r
  }

  /** `updateInvoiceStatus(id, status)`. */
  function UpdateInvoiceStatus(m: InvoiceTable, id: int, status: InvoiceStatus): (r: Updated)
    ensures r.count == if id in m then 1 else 0
    ensures r.table.Keys == m.Keys
    ensures forall k :: k in m && k != id ==> r.table[k] == m[k]
    ensures id in m ==> r.table[id].status == status
    ensures id in m ==> r.table[id].(status := m[id].status) == m[id]
  {
    if id in m then Updated(m[id := m[id].(status := status)], 1) else Updated(m, 0)
  }

  /** `updateInvoiceCurrency(id, currency)`. */
  function UpdateInvoiceCurrency(m: InvoiceTable, id: int, currency: CurrencyCode): (r: Updated)
    ensures r.count == if id in m then 1 else 0
    ensures r.table.Keys == m.Keys
    ensures forall k :: k in m && k != id ==> r.table[k] == m[k]
    ensures id in m ==> r.table[id].amount.currency == currency
    ensures id in m ==> r.table[id].amount.value == m[id].amount.value
    ensures id in m ==> r.table[id].(amount := m[id].amount) == m[id]
  {
    if id in m then Updated(m[id := m[id].(amount := m[id].amount.(currency := currency))], 1)
    else Updated(m, 0)
  }

  /** `updateInvoice(invoice)`: overwrites customerId, currency, value and
      status of the row with the invoice's id. */
  function UpdateInvoice(m: InvoiceTable, inv: Invoice): (r: Updated)
    requires InvoicesKeyed(m)
    ensures InvoicesKeyed(r.table)
    ensures r.count == if inv.id in m then 1 else 0
    ensures r.table.Keys == m.Keys
    ensures forall k :: k in m && k != inv.id ==> r.table[k] == m[k]
    ensures FetchInvoice(r.table, inv.id) == if inv.id in m then Some(inv) else None
  {
    if inv.id in m then
      Updated(m[inv.id := m[inv.id].(customerId := inv.customerId,
                                      amount := Money(inv.amount.value, inv.amount.currency),
                                      status := inv.status)], 1)
    else Updated(m, 0)
  }

  /** A status update keeps the primary-key discipline, and the updated
      invoice is fetched by a status set exactly when the new status is in it;
      every other invoice is fetched as before. */
  lemma UpdateStatusThenFetchByStatus(m: InvoiceTable, id: int, s: InvoiceStatus, statuses: set<InvoiceStatus>, inv: Invoice)
    requires InvoicesKeyed(m)
    requires id in m
    ensures InvoicesKeyed(UpdateInvoiceStatus(m, id, s).table)
    ensures var fetched := FetchInvoicesByStatus(UpdateInvoiceStatus(m, id, s).table, statuses);
      && (m[id].(status := s) in fetched <==> s in statuses)
      && (inv.id != id ==> (inv in fetched <==> inv in FetchInvoicesByStatus(m, statuses)))
  {
  }

  /** Writing back the old status restores the table: the update touches
      nothing but that status. */
  lemma UpdateStatusIsUndone(m: InvoiceTable, id: int, s: InvoiceStatus)
    requires id in m
    ensures UpdateInvoiceStatus(UpdateInvoiceStatus(m, id, s).table, id, m[id].status).table == m
  {
  }

  /** Writing back the old currency restores the table: the update touches
      nothing but that currency, and an absent id changes nothing. */
  lemma UpdateCurrencyIsUndone(m: InvoiceTable, id: int, c: CurrencyCode)
    ensures id in m ==>
      UpdateInvoiceCurrency(UpdateInvoiceCurrency(m, id, c).table, id, m[id].amount.currency).table == m
    ensures id !in m ==> UpdateInvoiceCurrency(m, id, c).table == m
  {
  }
}

=== FILE: billing_properties.dfy ===
/** Properties of `BillingService.kt` that relate several steps of the
    model: what processing one invoice does for each answer of the payment
    provider, what a failing lock table does to a pass, and what a whole
    pass guarantees about lock probes, lock balance and gateway calls. */
module BillingProperties {
  import opened Exceptions
  import opened Models
  import LockDal
  import AntaeusDal
  import LockingService
  import opened Resiliency
  import opened BillingService

  /** The `count` lock-table invocations from position `from` on all complete. */
  ghost predicate LockStoreHealthy(env: Env, from: nat, count: nat) {
    forall k: nat :: from <= k < from + count ==> env.lockStore(k).None?
  }

  /** Reference definition of a status update: the stored invoice with that
      id, if any, gets the new status and nothing else changes. */
  function WithStatus(m: AntaeusDal.InvoiceTable, id: int, s: InvoiceStatus): AntaeusDal.InvoiceTable {
    if id in m then m[id := m[id].(status := s)] else m
  }

  /** The invoice table after the provider answered `charged` for `inv`. */
  function AnswerTable(m: AntaeusDal.InvoiceTable, inv: Invoice, charged: bool): AntaeusDal.InvoiceTable {
    if charged then WithStatus(m, inv.id, Paid)
    else if inv.status == Pending then WithStatus(m, inv.id, Failed)
    else m
  }

  /** The notifications sent after the provider answered `charged` for `inv`. */
  function AnswerEvents(inv: Invoice, charged: bool): seq<Event> {
    if charged then [NotifiedInvoiceCharged(inv.customerId)]
    else if inv.status == Pending then [NotifiedCheckAccountBalance(inv.customerId)]
    else []
  }

  /** The collaborator call each exception kind other than NetworkException
      is dispatched to. */
  function HandlerEvent(e: Exn, inv: Invoice): Event {
    if e.CustomerNotFoundException? then CustomerNotFoundHandled(inv.customerId)
    else if e.CurrencyMismatchException? then CurrencyMismatchHandled(inv)
    else if e.LockException? then LockProblemHandled(inv.customerId)
    else UnknownErrorLogged(e)
  }

  /** The three lock steps when the next lock-table invocation completes:
      one invocation, the table's own answer or update. */
  lemma LockStepsOnHealthyStore(st: Billing, env: Env, c: int)
    requires env.lockStore(st.lockStoreCalls).None?
    ensures GetLockStep(st, env, c) ==
      Called(st.(lockStoreCalls := st.lockStoreCalls + 1, log := st.log + [GetLockCalled(c)]),
             Returned(LockDal.GetLock(st.locks, c)))
    ensures SetLockStep(st, env, c) ==
      Called(st.(locks := LockDal.SetLock(st.locks, c), lockStoreCalls := st.lockStoreCalls + 1,
                 log := st.log + [SetLockCalled(c)]),
             Returned(()))
    ensures ReleaseLockStep(st, env, c) ==
      Called(st.(locks := LockDal.ReleaseLock(st.locks, c), lockStoreCalls := st.lockStoreCalls + 1,
                 log := st.log + [ReleaseLockCalled(c)]),
             Returned(()))
  {
    LockingService.LockCallsAfterFirstInvocation(st.locks, env.lockStore, st.lockStoreCalls, c);
  }

  /** The three lock steps when the next lock-table invocation fails with
      anything but NetworkException: LockException after one invocation,
      the table unchanged. */
  lemma LockStepsOnFailingStore(st: Billing, env: Env, c: int)
    requires env.lockStore(st.lockStoreCalls).Some?
    requires env.lockStore(st.lockStoreCalls) != Some(NetworkException)
    ensures GetLockStep(st, env, c) ==
      Called(st.(lockStoreCalls := st.lockStoreCalls + 1, log := st.log + [GetLockCalled(c)]),
             Threw(LockException))
    ensures SetLockStep(st, env, c) ==
      Called(st.(lockStoreCalls := st.lockStoreCalls + 1, log := st.log + [SetLockCalled(c)]),
             Threw(LockException))
    ensures ReleaseLockStep(st, env, c) ==
      Called(st.(lockStoreCalls := st.lockStoreCalls + 1, log := st.log + [ReleaseLockCalled(c)]),
             Threw(LockException))
  {
    LockingService.LockCallsAfterFirstInvocation(st.locks, env.lockStore, st.lockStoreCalls, c);
  }

  /** If `getLock` returns a lock, the invoice is skipped: no `setLock`, no
      charge, no `releaseLock`, no status change, no notification. */
  lemma LockedCustomerIsSkipped(st: Billing, inv: Invoice, env: Env)
    requires LockingService.GetLock(st.locks, env.lockStore, st.lockStoreCalls, inv.customerId).outcome.Returned?
    requires inv.customerId in LockDal.Holders(st.locks)
    ensures var r := ChargeSingleCustomerInvoice(st, inv, env);
      && r.escaped == None
      && r.state.invoices == st.invoices
      && r.state.locks == st.locks
      && r.state.gatewayCalls == st.gatewayCalls
      && r.state.networkFailedChargings == st.networkFailedChargings
      && r.state.log == st.log + [GetLockCalled(inv.customerId)]
  {
  }

  /** The state after the lock is taken and the provider was called once,
      on a lock table whose invocations complete. */
  function Charging(st: Billing, inv: Invoice): Billing {
    st.(locks := LockDal.SetLock(st.locks, inv.customerId),
        lockStoreCalls := st.lockStoreCalls + 2,
        gatewayCalls := st.gatewayCalls + 1,
        log := st.log + [GetLockCalled(inv.customerId), SetLockCalled(inv.customerId), ChargeAttempted(inv.id)])
  }

  /** The state after a completed `releaseLock(c)`. */
  function Released(st: Billing, c: int): Billing {
    st.(locks := LockDal.ReleaseLock(st.locks, c),
        lockStoreCalls := st.lockStoreCalls + 1,
        log := st.log + [ReleaseLockCalled(c)])
  }

  /** The state once the lock was probed and taken, on a lock table whose
      invocations complete. */
  function Locked(st: Billing, inv: Invoice): Billing {
    st.(locks := LockDal.SetLock(st.locks, inv.customerId),
        lockStoreCalls := st.lockStoreCalls + 2,
        log := st.log + [GetLockCalled(inv.customerId)] + [SetLockCalled(inv.customerId)])
  }

  /** A probe that completes and finds no lock leads to taking it. */
  lemma ProbeFindsNoLock(st: Billing, inv: Invoice, env: Env)
    requires env.lockStore(st.lockStoreCalls).None?
    requires inv.customerId !in LockDal.Holders(st.locks)
    ensures ChargeSingleCustomerInvoice(st, inv, env) ==
      LockAndCharge(st.(lockStoreCalls := st.lockStoreCalls + 1, log := st.log + [GetLockCalled(inv.customerId)]), inv, env)
  {
    LockStepsOnHealthyStore(st, env, inv.customerId);
  }

  /** A `setLock` that completes, after the probe, leads to the charge. */
  lemma LockIsTaken(st: Billing, inv: Invoice, env: Env)
    requires env.lockStore(st.lockStoreCalls + 1).None?
    ensures LockAndCharge(st.(lockStoreCalls := st.lockStoreCalls + 1, log := st.log + [GetLockCalled(inv.customerId)]), inv, env)
      == ChargeLocked(Locked(st, inv), inv, env)
  {
    var probed := st.(lockStoreCalls := st.lockStoreCalls + 1, log := st.log + [GetLockCalled(inv.customerId)]);
    LockStepsOnHealthyStore(probed, env, inv.customerId);
    assert SetLockStep(probed, env, inv.customerId).state == Locked(st, inv);
  }

  /** A release that completes ends the invoice with nothing escaping, on
      the normal path and in the catch block alike. */
  lemma ReleaseCompletes(st: Billing, inv: Invoice, env: Env, e: Exn)
    requires env.lockStore(st.lockStoreCalls).None?
    ensures ReleaseAfterCharge(st, inv, env) == Step(Released(st, inv.customerId), None)
    ensures CatchPath(st, e, inv, env) ==
      Step(Released(HandleChargingExceptions(st, e, inv, env), inv.customerId), None)
  {
    LockStepsOnHealthyStore(st, env, inv.customerId);
    var handled := HandleChargingExceptions(st, e, inv, env);
    LockStepsOnHealthyStore(handled, env, inv.customerId);
  }

  /** What handling the provider's first answer to `inv` leaves behind. */
  function HandleAnswer(st: Billing, inv: Invoice, answer: Outcome<bool>, env: Env): Billing {
    if answer.Threw? then HandleChargingExceptions(st, answer.error, inv, env)
    else HandleCustomerChargeResponse(st, inv, answer.value)
  }

  /** With the lock taken and a release that completes: charge, handle, release. */
  lemma ChargeThenRelease(st: Billing, inv: Invoice, env: Env)
    requires env.lockStore(st.lockStoreCalls + 2).None?
    ensures ChargeLocked(Locked(st, inv), inv, env) ==
      Step(Released(HandleAnswer(Charging(st, inv), inv, env.gateway(st.gatewayCalls), env), inv.customerId), None)
  {
    var charged := Charging(st, inv);
    var answer := env.gateway(st.gatewayCalls);
    assert Locked(st, inv).log + [ChargeAttempted(inv.id)] == charged.log;
    assert ChargeStep(Locked(st, inv), env, inv) == Called(charged, answer);
    if answer.Threw? {
      ReleaseCompletes(charged, inv, env, answer.error);
    } else {
      ReleaseCompletes(HandleCustomerChargeResponse(charged, inv, answer.value), inv, env, NetworkException);
    }
  }

  /** An unlocked customer on a healthy lock table: probe, take the lock,
      charge, handle the answer or the exception, release; nothing escapes. */
  lemma UnlockedInvoiceOnHealthyStore(st: Billing, inv: Invoice, env: Env)
    requires LockStoreHealthy(env, st.lockStoreCalls, 3)
    requires inv.customerId !in LockDal.Holders(st.locks)
    ensures ChargeSingleCustomerInvoice(st, inv, env) ==
      Step(Released(HandleAnswer(Charging(st, inv), inv, env.gateway(st.gatewayCalls), env), inv.customerId), None)
  {
    assert env.lockStore(st.lockStoreCalls).None?;
    assert env.lockStore(st.lockStoreCalls + 1).None?;
    assert env.lockStore(st.lockStoreCalls + 2).None?;
    ProbeFindsNoLock(st, inv, env);
    LockIsTaken(st, inv, env);
    ChargeThenRelease(st, inv, env);
  }

  /** Handling an answer of the provider is the reference update and the
      reference notifications, and nothing else. */
  lemma ResponseIsAnswer(st: Billing, inv: Invoice, charged: bool)
    ensures HandleCustomerChargeResponse(st, inv, charged) ==
      st.(invoices := AnswerTable(st.invoices, inv, charged), log := st.log + AnswerEvents(inv, charged))
  {
  }

  /** An answer from the provider, on a healthy lock table: the reference
      update and notifications between taking and releasing the lock. */
  lemma AnsweredInvoice(st: Billing, inv: Invoice, env: Env, charged: bool)
    requires LockStoreHealthy(env, st.lockStoreCalls, 3)
    requires inv.customerId !in LockDal.Holders(st.locks)
    requires env.gateway(st.gatewayCalls) == Returned(charged)
    ensures var r := ChargeSingleCustomerInvoice(st, inv, env);
      var c := inv.customerId;
      && r.escaped == None
      && r.state.invoices == AnswerTable(st.invoices, inv, charged)
      && r.state.log == st.log + [GetLockCalled(c), SetLockCalled(c), ChargeAttempted(inv.id)]
                              + AnswerEvents(inv, charged) + [ReleaseLockCalled(c)]
      && LockDal.Holders(r.state.locks) == LockDal.Holders(st.locks)
      && r.state.gatewayCalls == st.gatewayCalls + 1
      && r.state.networkFailedChargings == st.networkFailedChargings
  {
    UnlockedInvoiceOnHealthyStore(st, inv, env);
    ResponseIsAnswer(Charging(st, inv), inv, charged);
    LockDal.ReleaseAfterSetLock(st.locks, inv.customerId, inv.customerId);
  }

  /** A charge returning true: the invoice becomes PAID, exactly one "charged"
      notification goes to its customer, and the lock is taken and released. */
  lemma ChargedInvoiceIsPaid(st: Billing, inv: Invoice, env: Env)
    requires LockStoreHealthy(env, st.lockStoreCalls, 3)
    requires inv.customerId !in LockDal.Holders(st.locks)
    requires env.gateway(st.gatewayCalls) == Returned(true)
    ensures var r := ChargeSingleCustomerInvoice(st, inv, env);
      && r.escaped == None
      && r.state.invoices == WithStatus(st.invoices, inv.id, Paid)
      && r.state.log == st.log + [GetLockCalled(inv.customerId), SetLockCalled(inv.customerId),
                                  ChargeAttempted(inv.id), NotifiedInvoiceCharged(inv.customerId),
                                  ReleaseLockCalled(inv.customerId)]
      && LockDal.Holders(r.state.locks) == LockDal.Holders(st.locks)
      && r.state.gatewayCalls == st.gatewayCalls + 1
      && r.state.networkFailedChargings == st.networkFailedChargings
  {
    AnsweredInvoice(st, inv, env, true);
  }

  /** A charge returning false: a PENDING invoice becomes FAILED with exactly
      one check-balance notification; a FAILED one keeps its status and gets
      no notification. */
  lemma DeclinedInvoice(st: Billing, inv: Invoice, env: Env)
    requires LockStoreHealthy(env, st.lockStoreCalls, 3)
    requires inv.customerId !in LockDal.Holders(st.locks)
    requires env.gateway(st.gatewayCalls) == Returned(false)
    ensures var r := ChargeSingleCustomerInvoice(st, inv, env);
      var c := inv.customerId;
      && r.escaped == None
      && (inv.status == Pending ==>
            && r.state.invoices == WithStatus(st.invoices, inv.id, Failed)
            && r.state.log == st.log + [GetLockCalled(c), SetLockCalled(c), ChargeAttempted(inv.id),
                                        NotifiedCheckAccountBalance(c), ReleaseLockCalled(c)])
      && (inv.status != Pending ==>
            && r.state.invoices == st.invoices
            && r.state.log == st.log + [GetLockCalled(c), SetLockCalled(c), ChargeAttempted(inv.id),
                                        ReleaseLockCalled(c)])
      && LockDal.Holders(r.state.locks) == LockDal.Holders(st.locks)
  {
    AnsweredInvoice(st, inv, env, false);
  }

  /** The dispatcher on an exception other than NetworkException: exactly
      one collaborator call or log line, chosen by kind, and nothing else. */
  lemma DispatchIsByKind(st: Billing, e: Exn, inv: Invoice, env: Env)
    requires !e.NetworkException?
    ensures HandleChargingExceptions(st, e, inv, env) == st.(log := st.log + [HandlerEvent(e, inv)])
  {
  }

  /** An exception other than NetworkException from the charge is dispatched
      to exactly one handler, by kind; no status is written and the lock is
      still released. */
  lemma ChargeExceptionIsDispatched(st: Billing, inv: Invoice, env: Env)
    requires LockStoreHealthy(env, st.lockStoreCalls, 3)
    requires inv.customerId !in LockDal.Holders(st.locks)
    requires env.gateway(st.gatewayCalls).Threw?
    requires !env.gateway(st.gatewayCalls).error.NetworkException?
    ensures var r := ChargeSingleCustomerInvoice(st, inv, env);
      var c := inv.customerId;
      && r.escaped == None
      && r.state.invoices == st.invoices
      && r.state.log == st.log + [GetLockCalled(c), SetLockCalled(c), ChargeAttempted(inv.id),
                                  HandlerEvent(env.gateway(st.gatewayCalls).error, inv), ReleaseLockCalled(c)]
      && LockDal.Holders(r.state.locks) == LockDal.Holders(st.locks)
      && r.state.gatewayCalls == st.gatewayCalls + 1
      && r.state.networkFailedChargings == st.networkFailedChargings
  {
    UnlockedInvoiceOnHealthyStore(st, inv, env);
    DispatchIsByKind(Charging(st, inv), env.gateway(st.gatewayCalls).error, inv, env);
    LockDal.ReleaseAfterSetLock(st.locks, inv.customerId, inv.customerId);
  }

  /** `handleNetworkException` on its own: the retried charges are gateway
      calls from the current position on; a value is handled like a direct
      answer, an unavailable provider bumps the counter and is logged with
      its new value, any other exception is dispatched by kind. */
  lemma NetworkHandlerOutcome(st: Billing, inv: Invoice, env: Env)
    ensures var run := Retry(DefaultMaxRetries, DefaultWaitTimeInSeconds, GatewayFrom(env, st.gatewayCalls));
      var r := HandleNetworkException(st, inv, env);
      var tried := st.log + Charges(inv.id, run.invocations);
      && r.gatewayCalls == st.gatewayCalls + run.invocations
      && r.locks == st.locks
      && (run.result.Returned? ==>
            && r.invoices == AnswerTable(st.invoices, inv, run.result.value)
            && r.log == tried + AnswerEvents(inv, run.result.value)
            && r.networkFailedChargings == st.networkFailedChargings)
      && (run.result == Threw(ExternalServiceNotAvailableException) ==>
            && r.invoices == st.invoices
            && r.networkFailedChargings == st.networkFailedChargings + 1
            && r.log == tried + [ProviderUnavailableLogged(st.networkFailedChargings + 1)])
      && (run.result.Threw? && run.result != Threw(ExternalServiceNotAvailableException) ==>
            && r.invoices == st.invoices
            && r.networkFailedChargings == st.networkFailedChargings
            && r.log == tried + [HandlerEvent(run.result.error, inv)])
  {
    var run := Retry(DefaultMaxRetries, DefaultWaitTimeInSeconds, GatewayFrom(env, st.gatewayCalls));
    var st1 := st.(gatewayCalls := st.gatewayCalls + run.invocations,
                   log := st.log + Charges(inv.id, run.invocations));
    if run.result.Threw? && run.result != Threw(ExternalServiceNotAvailableException) {
      DispatchIsByKind(st1, run.result.error, inv, env);
    }
  }

  /** A NetworkException from the charge hands the invoice to
      `handleNetworkException` (whose outcomes `NetworkHandlerOutcome`
      states), then the lock is released and nothing escapes. At most
      1 + 3 gateway calls are made. */
  lemma NetworkFailureIsRetried(st: Billing, inv: Invoice, env: Env)
    requires LockStoreHealthy(env, st.lockStoreCalls, 3)
    requires inv.customerId !in LockDal.Holders(st.locks)
    requires env.gateway(st.gatewayCalls) == Threw(NetworkException)
    ensures var r := ChargeSingleCustomerInvoice(st, inv, env);
      && r == Step(Released(HandleNetworkException(Charging(st, inv), inv, env), inv.customerId), None)
      && LockDal.Holders(r.state.locks) == LockDal.Holders(st.locks)
      && st.gatewayCalls + 1 < r.state.gatewayCalls <= st.gatewayCalls + MaxChargesPerInvoice
  {
    UnlockedInvoiceOnHealthyStore(st, inv, env);
    LockDal.ReleaseAfterSetLock(st.locks, inv.customerId, inv.customerId);
  }

  /** A failing `getLock` still leads to the handler and a `releaseLock`,
      which deletes every row of the customer, whoever had taken them. */
  lemma FailedProbeStillReleases(st: Billing, inv: Invoice, env: Env)
    requires env.lockStore(st.lockStoreCalls).Some?
    requires env.lockStore(st.lockStoreCalls) != Some(NetworkException)
    requires env.lockStore(st.lockStoreCalls + 1).None?
    ensures var r := ChargeSingleCustomerInvoice(st, inv, env);
      var c := inv.customerId;
      && r.escaped == None
      && r.state.invoices == st.invoices
      && r.state.gatewayCalls == st.gatewayCalls
      && r.state.log == st.log + [GetLockCalled(c), LockProblemHandled(c), ReleaseLockCalled(c)]
      && LockDal.Holders(r.state.locks) == LockDal.Holders(st.locks)[c := 0]
  {
    LockStepsOnFailingStore(st, env, inv.customerId);
    var probed := GetLockStep(st, env, inv.customerId).state;
    var handled := HandleChargingExceptions(probed, LockException, inv, env);
    assert handled.lockStoreCalls == st.lockStoreCalls + 1;
    LockStepsOnHealthyStore(handled, env, inv.customerId);
  }

  /** When the release in the catch block fails too, its LockException is
      not caught: the pass ends at that invoice and the rest are not
      processed. */
  lemma FailingReleaseAbortsPass(st: Billing, invs: seq<Invoice>, env: Env)
    requires |invs| > 0
    requires env.lockStore(st.lockStoreCalls).Some?
    requires env.lockStore(st.lockStoreCalls) != Some(NetworkException)
    requires env.lockStore(st.lockStoreCalls + 1).Some?
    requires env.lockStore(st.lockStoreCalls + 1) != Some(NetworkException)
    ensures var r := ProcessInvoices(st, invs, env);
      var c := invs[0].customerId;
      && r.escaped == Some(LockException)
      && r.state.invoices == st.invoices
      && r.state.locks == st.locks
      && r.state.log == st.log + [GetLockCalled(c), LockProblemHandled(c), ReleaseLockCalled(c)]
  {
    var inv := invs[0];
    LockStepsOnFailingStore(st, env, inv.customerId);
    var probed := GetLockStep(st, env, inv.customerId).state;
    var handled := HandleChargingExceptions(probed, LockException, inv, env);
    assert handled.lockStoreCalls == st.lockStoreCalls + 1;
    LockStepsOnFailingStore(handled, env, inv.customerId);
  }

  /** Probes of a log that grew in two steps. */
  lemma ProbesSplit(base: seq<Event>, mid: seq<Event>, top: seq<Event>)
    requires base <= mid <= top
    ensures Probes(top[|base|..]) == Probes(mid[|base|..]) + Probes(top[|mid|..])
  {
    assert top[|base|..] == mid[|base|..] + top[|mid|..];
    ProbesAppend(mid[|base|..], top[|mid|..]);
  }

  /** Putting the same customer in front keeps a prefix a prefix. Stated
      apart so that the induction below does not reason about slices. */
  lemma PrefixAfter(x: int, a: seq<int>, b: seq<int>)
    requires a <= b
    ensures [x] + a <= [x] + b && [x] + a != []
  {
  }

  /** A pass probes the lock of each processed invoice's customer exactly
      once, in list order: all of them when nothing escapes, a non-empty
      prefix of them otherwise. */
  lemma {:induction false} PassProbesEachInvoiceOnce(st: Billing, invs: seq<Invoice>, env: Env)
    ensures var r := ProcessInvoices(st, invs, env);
      var probes := Probes(r.state.log[|st.log|..]);
      && probes <= CustomersOf(invs)
      && (invs != [] ==> probes != [])
      && (r.escaped.None? ==> probes == CustomersOf(invs))
    decreases |invs|
  {
    if invs == [] {
      assert ProcessInvoices(st, invs, env).state.log[|st.log|..] == [];
    } else {
      var first := ChargeSingleCustomerInvoice(st, invs[0], env);
      ProbesOfOneInvoice(st, invs[0], env);
      var c := invs[0].customerId;
      assert CustomersOf(invs) == [c] + CustomersOf(invs[1..]);
      if first.escaped.None? {
        PassProbesEachInvoiceOnce(first.state, invs[1..], env);
        var rest := ProcessInvoices(first.state, invs[1..], env);
        assert ProcessInvoices(st, invs, env) == rest;
        ProbesSplit(st.log, first.state.log, rest.state.log);
        PrefixAfter(c, Probes(rest.state.log[|first.state.log|..]), CustomersOf(invs[1..]));
      } else {
        assert ProcessInvoices(st, invs, env) == first;
        PrefixAfter(c, [], CustomersOf(invs[1..]));
      }
    }
  }

  /** The number of times `ev` occurs in a log. */
  function Occurrences(log: seq<Event>, ev: Event): nat {
    multiset(log)[ev]
  }

  /** Each `setLock` of the log is matched by a `releaseLock` for the same customer. */
  ghost predicate LockCallsBalanced(log: seq<Event>) {
    forall c: int :: Occurrences(log, SetLockCalled(c)) == Occurrences(log, ReleaseLockCalled(c))
  }

  /** Balance of a log that grew in two balanced steps. */
  lemma BalancedSplit(base: seq<Event>, mid: seq<Event>, top: seq<Event>)
    requires base <= mid <= top
    requires LockCallsBalanced(mid[|base|..])
    requires LockCallsBalanced(top[|mid|..])
    ensures LockCallsBalanced(top[|base|..])
  {
    var a := mid[|base|..];
    var b := top[|mid|..];
    assert top[|base|..] == a + b;
    forall c: int ensures Occurrences(a + b, SetLockCalled(c)) == Occurrences(a + b, ReleaseLockCalled(c)) {
      assert multiset(a + b) == multiset(a) + multiset(b);
      assert Occurrences(a, SetLockCalled(c)) == Occurrences(a, ReleaseLockCalled(c));
      assert Occurrences(b, SetLockCalled(c)) == Occurrences(b, ReleaseLockCalled(c));
    }
  }

  /** Taking a lock, charging, handling without lock calls and releasing
      leaves the lock calls balanced. */
  lemma BalancedAroundHandler(base: seq<Event>, handled: seq<Event>, c: int, id: int)
    requires NoLockCallAdded(base + [GetLockCalled(c), SetLockCalled(c), ChargeAttempted(id)], handled)
    ensures LockCallsBalanced((handled + [ReleaseLockCalled(c)])[|base|..])
  {
    var prefix := base + [GetLockCalled(c), SetLockCalled(c), ChargeAttempted(id)];
    var middle := handled[|prefix|..];
    var added := (handled + [ReleaseLockCalled(c)])[|base|..];
    assert added == [GetLockCalled(c), SetLockCalled(c), ChargeAttempted(id)] + middle + [ReleaseLockCalled(c)];
    forall d: int ensures Occurrences(added, SetLockCalled(d)) == Occurrences(added, ReleaseLockCalled(d)) {
      assert forall i :: 0 <= i < |middle| ==> middle[i] == handled[|prefix| + i];
      assert SetLockCalled(d) !in middle;
      assert ReleaseLockCalled(d) !in middle;
    }
  }

  /** A customer that holds a lock, on a healthy lock table: only the probe,
      which adds no lock call to balance. */
  lemma LockedInvoiceOnHealthyStore(st: Billing, inv: Invoice, env: Env)
    requires env.lockStore(st.lockStoreCalls).None?
    requires inv.customerId in LockDal.Holders(st.locks)
    ensures var r := ChargeSingleCustomerInvoice(st, inv, env);
      && r.escaped == None
      && r.state.locks == st.locks
      && r.state.lockStoreCalls == st.lockStoreCalls + 1
      && LockCallsBalanced(r.state.log[|st.log|..])
  {
    var c := inv.customerId;
    LockStepsOnHealthyStore(st, env, c);
    var added := ChargeSingleCustomerInvoice(st, inv, env).state.log[|st.log|..];
    assert added == [GetLockCalled(c)];
  }

  /** An unlocked customer on a healthy lock table: three lock calls, the
      lock holders as before, and the lock calls balanced. */
  lemma UnlockedInvoiceOnHealthyStoreBalanced(st: Billing, inv: Invoice, env: Env)
    requires LockStoreHealthy(env, st.lockStoreCalls, 3)
    requires inv.customerId !in LockDal.Holders(st.locks)
    ensures var r := ChargeSingleCustomerInvoice(st, inv, env);
      && r.escaped == None
      && LockDal.Holders(r.state.locks) == LockDal.Holders(st.locks)
      && r.state.lockStoreCalls == st.lockStoreCalls + 3
      && LockCallsBalanced(r.state.log[|st.log|..])
  {
    var c := inv.customerId;
    UnlockedInvoiceOnHealthyStore(st, inv, env);
    LockDal.ReleaseAfterSetLock(st.locks, c, c);
    var handled := HandleAnswer(Charging(st, inv), inv, env.gateway(st.gatewayCalls), env);
    BalancedAroundHandler(st.log, handled.log, c, inv.id);
  }

  /** One invoice on a healthy lock table: no escape, the lock table's
      holders as before, and its lock calls balanced. */
  lemma InvoiceOnHealthyStore(st: Billing, inv: Invoice, env: Env)
    requires LockStoreHealthy(env, st.lockStoreCalls, 3)
    ensures var r := ChargeSingleCustomerInvoice(st, inv, env);
      && r.escaped == None
      && LockDal.Holders(r.state.locks) == LockDal.Holders(st.locks)
      && st.lockStoreCalls < r.state.lockStoreCalls <= st.lockStoreCalls + 3
      && LockCallsBalanced(r.state.log[|st.log|..])
  {
    if inv.customerId in LockDal.Holders(st.locks) {
      assert env.lockStore(st.lockStoreCalls).None?;
      LockedInvoiceOnHealthyStore(st, inv, env);
    } else {
      UnlockedInvoiceOnHealthyStoreBalanced(st, inv, env);
    }
  }

  /** A pass on a healthy lock table: nothing escapes, the lock table's
      holders are the same afterwards, and every `setLock` of the pass is
      matched by exactly one `releaseLock` for the same customer. */
  lemma {:induction false} PassKeepsLockBalance(st: Billing, invs: seq<Invoice>, env: Env)
    requires LockStoreHealthy(env, st.lockStoreCalls, 3 * |invs|)
    ensures var r := ProcessInvoices(st, invs, env);
      && r.escaped == None
      && LockDal.Holders(r.state.locks) == LockDal.Holders(st.locks)
      && r.state.lockStoreCalls <= st.lockStoreCalls + 3 * |invs|
      && LockCallsBalanced(r.state.log[|st.log|..])
    decreases |invs|
  {
    if invs == [] {
      assert ProcessInvoices(st, invs, env).state.log[|st.log|..] == [];
    } else {
      InvoiceOnHealthyStore(st, invs[0], env);
      var first := ChargeSingleCustomerInvoice(st, invs[0], env);
      assert LockStoreHealthy(env, first.state.lockStoreCalls, 3 * |invs[1..]|);
      PassKeepsLockBalance(first.state, invs[1..], env);
      var rest := ProcessInvoices(first.state, invs[1..], env);
      BalancedSplit(st.log, first.state.log, rest.state.log);
    }
  }

  /** The invoices a charge was attempted for, in log order. */
  function ChargedIds(log: seq<Event>): seq<int> {
    if log == [] then []
    else (if log[0].ChargeAttempted? then [log[0].invoiceId] else []) + ChargedIds(log[1..])
  }

  lemma {:induction false} ChargedIdsAppend(a: seq<Event>, b: seq<Event>)
    ensures ChargedIds(a + b) == ChargedIds(a) + ChargedIds(b)
  {
    if a == [] {
      assert a + b == b;
    } else {
      assert (a + b)[0] == a[0];
      assert (a + b)[1..] == a[1..] + b;
      ChargedIdsAppend(a[1..], b);
    }
  }

  lemma {:induction false} NoCharges(log: seq<Event>)
    requires forall i :: 0 <= i < |log| ==> !log[i].ChargeAttempted?
    ensures ChargedIds(log) == []
  {
    if log != [] {
      NoCharges(log[1..]);
    }
  }

  /** Charge attempts of a log that grew in two steps. */
  lemma ChargesSplit(base: seq<Event>, mid: seq<Event>, top: seq<Event>)
    requires base <= mid <= top
    ensures ChargedIds(top[|base|..]) == ChargedIds(mid[|base|..]) + ChargedIds(top[|mid|..])
  {
    assert top[|base|..] == mid[|base|..] + top[|mid|..];
    ChargedIdsAppend(mid[|base|..], top[|mid|..]);
  }

  /** The ids of a list of invoices, in list order. */
  function InvoiceIdsOf(invs: seq<Invoice>): (r: seq<int>)
    ensures |r| == |invs|
  {
    if invs == [] then [] else [invs[0].id] + InvoiceIdsOf(invs[1..])
  }

  /** An answer that is not a NetworkException is handled without another
      charge attempt. */
  lemma HandledWithoutCharge(st: Billing, inv: Invoice, answer: Outcome<bool>, env: Env)
    requires !IsNetworkFailure(answer)
    ensures var h := HandleAnswer(st, inv, answer, env).log;
      st.log <= h && forall i :: |st.log| <= i < |h| ==> !h[i].ChargeAttempted?
  {
    if answer.Threw? {
      DispatchIsByKind(st, answer.error, inv, env);
    } else {
      ResponseIsAnswer(st, inv, answer.value);
    }
  }

  /** Taking a lock, charging once, handling without another charge and
      releasing logs one charge attempt. */
  lemma OneChargeAroundHandler(base: seq<Event>, handled: seq<Event>, c: int, id: int)
    requires base + [GetLockCalled(c), SetLockCalled(c), ChargeAttempted(id)] <= handled
    requires forall i :: |base| + 3 <= i < |handled| ==> !handled[i].ChargeAttempted?
    ensures ChargedIds((handled + [ReleaseLockCalled(c)])[|base|..]) == [id]
  {
    var head := [GetLockCalled(c), SetLockCalled(c), ChargeAttempted(id)];
    var tail := handled[|base| + 3..] + [ReleaseLockCalled(c)];
    assert (handled + [ReleaseLockCalled(c)])[|base|..] == head + tail;
    NoCharges(tail);
    ChargedIdsAppend(head, tail);
    assert ChargedIds([ChargeAttempted(id)]) == [id] by {
      assert [ChargeAttempted(id)][1..] == [];
    }
    assert ChargedIds(head) == [id] by {
      assert head[1..] == [SetLockCalled(c), ChargeAttempted(id)];
      assert head[1..][1..] == [ChargeAttempted(id)];
    }
  }

  /** An unlocked customer on a healthy lock table, with a first answer
      that is not a NetworkException: one gateway call, logged as the one
      charge attempt of the invoice, and the lock table's holders as before. */
  lemma ChargedOnce(st: Billing, inv: Invoice, env: Env)
    requires LockStoreHealthy(env, st.lockStoreCalls, 3)
    requires inv.customerId !in LockDal.Holders(st.locks)
    requires !IsNetworkFailure(env.gateway(st.gatewayCalls))
    ensures var r := ChargeSingleCustomerInvoice(st, inv, env);
      && r.escaped == None
      && r.state.gatewayCalls == st.gatewayCalls + 1
      && st.log <= r.state.log
      && ChargedIds(r.state.log[|st.log|..]) == [inv.id]
      && LockDal.Holders(r.state.locks) == LockDal.Holders(st.locks)
      && r.state.lockStoreCalls == st.lockStoreCalls + 3
  {
    UnlockedInvoiceOnHealthyStore(st, inv, env);
    LockDal.ReleaseAfterSetLock(st.locks, inv.customerId, inv.customerId);
    var answer := env.gateway(st.gatewayCalls);
    HandledWithoutCharge(Charging(st, inv), inv, answer, env);
    OneChargeAroundHandler(st.log, HandleAnswer(Charging(st, inv), inv, answer, env).log, inv.customerId, inv.id);
  }

  /** On a healthy lock table, with no customer of the list holding a lock
      and a provider that never fails with NetworkException, each invoice of
      a pass is charged exactly once. */
  lemma {:induction false} PassChargesEachInvoiceOnce(st: Billing, invs: seq<Invoice>, env: Env)
    requires LockStoreHealthy(env, st.lockStoreCalls, 3 * |invs|)
    requires forall i :: 0 <= i < |invs| ==> invs[i].customerId !in LockDal.Holders(st.locks)
    requires forall k: nat :: st.gatewayCalls <= k < st.gatewayCalls + |invs| ==> !IsNetworkFailure(env.gateway(k))
    ensures var r := ProcessInvoices(st, invs, env);
      && r.state.gatewayCalls == st.gatewayCalls + |invs|
      && ChargedIds(r.state.log[|st.log|..]) == InvoiceIdsOf(invs)
    decreases |invs|
  {
    if invs == [] {
      assert ProcessInvoices(st, invs, env).state.log[|st.log|..] == [];
    } else {
      var inv := invs[0];
      assert !IsNetworkFailure(env.gateway(st.gatewayCalls));
      ChargedOnce(st, inv, env);
      var first := ChargeSingleCustomerInvoice(st, inv, env);
      var rest := invs[1..];
      assert LockStoreHealthy(env, first.state.lockStoreCalls, 3 * |rest|);
      assert forall i :: 0 <= i < |rest| ==> rest[i] == invs[i + 1];
      PassChargesEachInvoiceOnce(first.state, rest, env);
      var last := ProcessInvoices(first.state, rest, env);
      assert ProcessInvoices(st, invs, env) == last;
      ChargesSplit(st.log, first.state.log, last.state.log);
    }
  }

  /** A pass fetches exactly the stored PENDING and FAILED invoices, once. */
  lemma PassFetchesChargeableInvoices(st: Billing, env: Env)
    requires AntaeusDal.InvoicesKeyed(st.invoices)
    ensures var fetched := AntaeusDal.FetchInvoicesByStatus(st.invoices, Chargeable);
      && (forall inv: Invoice :: inv in fetched <==>
            inv.id in st.invoices && st.invoices[inv.id] == inv && (inv.status == Pending || inv.status == Failed))
      && ChargeCustomersInvoices(st, env) == ProcessInvoices(st, fetched, env)
  {
  }

  /** When nothing escapes, a pass probes the lock of each fetched
      invoice's customer once, in the order fetched. */
  lemma PassProbesEachFetchedInvoiceOnce(st: Billing, env: Env)
    requires AntaeusDal.InvoicesKeyed(st.invoices)
    ensures var r := ChargeCustomersInvoices(st, env);
      r.escaped.None? ==>
        Probes(r.state.log[|st.log|..]) == CustomersOf(AntaeusDal.FetchInvoicesByStatus(st.invoices, Chargeable))
  {
    var fetched := AntaeusDal.FetchInvoicesByStatus(st.invoices, Chargeable);
    PassFetchesChargeableInvoices(st, env);
    PassProbesEachInvoiceOnce(st, fetched, env);
  }

  /** `numberOfNetworkFailedChargings` is never reset: over two consecutive
      passes it does not decrease. */
  lemma CounterNeverDecreases(st: Billing, env1: Env, env2: Env)
    requires AntaeusDal.InvoicesKeyed(st.invoices)
    ensures var first := ChargeCustomersInvoices(st, env1).state;
      st.networkFailedChargings <= first.networkFailedChargings
        <= ChargeCustomersInvoices(first, env2).state.networkFailedChargings
  {
  }
}

=== FILE: billing_service.dfy ===
/** `BillingService.kt`: one billing pass over the chargeable invoices.

    The service's collaborators are modelled as follows.
    - The payment provider is an oracle: `env.gateway(k)` is what the k-th
      `charge` call of the run returns or throws.
    - The lock table sits behind `LockingService`, whose database calls fail
      as `env.lockStore(k)` says.
    - The invoice store is the `AntaeusDal` map.
    - Notifications, collaborator handlers and the warnings that are a
      branch's only effect are appended to an event log.
    `gatewayCalls` and `lockStoreCalls` count the calls made so far, so they
    are also the positions of the next call in the two oracles. */
module BillingService {
  import opened Exceptions
  import opened Models
  import LockDal
  import AntaeusDal
  import LockingService
  import opened Resiliency

  datatype Event =
    | GetLockCalled(customerId: int)
    | SetLockCalled(customerId: int)
    | ReleaseLockCalled(customerId: int)
    | ChargeAttempted(invoiceId: int)
    | NotifiedInvoiceCharged(customerId: int)
    | NotifiedCheckAccountBalance(customerId: int)
    | CustomerNotFoundHandled(customerId: int)
    | CurrencyMismatchHandled(invoice: Invoice)
    | LockProblemHandled(customerId: int)
    | UnknownErrorLogged(error: Exn)
    | ProviderUnavailableLogged(failedChargings: nat)

  /** The outside world of one run: the payment provider and the lock table's database. */
  datatype Env = Env(gateway: nat -> Outcome<bool>, lockStore: nat -> Option<Exn>)

  datatype Billing = Billing(
    invoices: AntaeusDal.InvoiceTable,
    locks: LockDal.LockTable,
    log: seq<Event>,
    networkFailedChargings: nat,
    gatewayCalls: nat,
    lockStoreCalls: nat)

  /** The state after processing, and the exception that escaped, if any. */
  datatype Step = Step(state: Billing, escaped: Option<Exn>)

  /** A collaborator call made from the service: the state after it, and
      what it returned or threw. */
  datatype Called<+T> = Called(state: Billing, outcome: Outcome<T>)

  /** The chargeable statuses. */
  const Chargeable: set<InvoiceStatus> := {Pending, Failed}

  /** The most gateway calls one invoice can cause: the direct call and one
      `retry` run. */
  const MaxChargesPerInvoice: int := 1 + DefaultMaxRetries

  /** Between two invoice tables only the status of `inv.id` differs, and it
      differs only by becoming Paid, or Failed when the fetched copy `inv`
      was Pending. */
  predicate StatusStep(before: AntaeusDal.InvoiceTable, after: AntaeusDal.InvoiceTable, inv: Invoice) {
    && after.Keys == before.Keys
    && (forall k :: k in before && k != inv.id ==> after[k] == before[k])
    && (inv.id in before ==>
          && after[inv.id].(status := before[inv.id].status) == before[inv.id]
          && (|| after[inv.id].status == before[inv.id].status
              || after[inv.id].status == Paid
              || (after[inv.id].status == Failed && inv.status == Pending)))
  }

  /** The events appended between two logs contain no lock probe. */
  predicate NoProbeAdded(before: seq<Event>, after: seq<Event>) {
    && before <= after
    && forall i :: |before| <= i < |after| ==> !after[i].GetLockCalled?
  }

  predicate IsLockCall(ev: Event) {
    ev.GetLockCalled? || ev.SetLockCalled? || ev.ReleaseLockCalled?
  }

  /** The events appended between two logs contain no LockingService call. */
  predicate NoLockCallAdded(before: seq<Event>, after: seq<Event>) {
    && before <= after
    && forall i :: |before| <= i < |after| ==> !IsLockCall(after[i])
  }

  /** Everything but the invoices and the log is as before. */
  predicate OnlyInvoicesAndLog(before: Billing, after: Billing) {
    && after.locks == before.locks
    && after.networkFailedChargings == before.networkFailedChargings
    && after.gatewayCalls == before.gatewayCalls
    && after.lockStoreCalls == before.lockStoreCalls
  }

  function SetStatus(st: Billing, id: int, status: InvoiceStatus): Billing {
    st.(invoices := AntaeusDal.UpdateInvoiceStatus(st.invoices, id, status).table)
  }

  /** `handleSuccessfulCharge`. */
  function HandleSuccessfulCharge(st: Billing, inv: Invoice): (r: Billing)
    ensures OnlyInvoicesAndLog(st, r)
    ensures StatusStep(st.invoices, r.invoices, inv)
    ensures inv.id in st.invoices ==> r.invoices[inv.id].status == Paid
    ensures r.log == st.log + [NotifiedInvoiceCharged(inv.customerId)]
  {
    SetStatus(st, inv.id, Paid).(log := st.log + [NotifiedInvoiceCharged(inv.customerId)])
  }

  /** `handleFailedCharge`: only a PENDING invoice is marked FAILED and
      notified; an already FAILED one is left as it is. The status checked is
      the one fetched at the start of the pass. */
  function HandleFailedCharge(st: Billing, inv: Invoice): (r: Billing)
    ensures OnlyInvoicesAndLog(st, r)
    ensures StatusStep(st.invoices, r.invoices, inv)
    ensures inv.status == Pending && inv.id in st.invoices ==> r.invoices[inv.id].status == Failed
    ensures inv.status == Pending ==> r.log == st.log + [NotifiedCheckAccountBalance(inv.customerId)]
    ensures inv.status != Pending ==> r == st
  {
    if inv.status == Pending then
      SetStatus(st, inv.id, Failed).(log := st.log + [NotifiedCheckAccountBalance(inv.customerId)])
    else st
  }

  /** `handleCustomerChargeResponse`. */
  function HandleCustomerChargeResponse(st: Billing, inv: Invoice, charged: bool): (r: Billing)
    ensures OnlyInvoicesAndLog(st, r)
    ensures StatusStep(st.invoices, r.invoices, inv)
    ensures NoLockCallAdded(st.log, r.log)
    ensures |r.log| <= |st.log| + 1
  {
    if charged then HandleSuccessfulCharge(st, inv) else HandleFailedCharge(st, inv)
  }

  /** `n` gateway calls for one invoice, as log events. */
  function Charges(invoiceId: int, n: nat): (r: seq<Event>)
    ensures |r| == n
    ensures forall i :: 0 <= i < n ==> r[i] == ChargeAttempted(invoiceId)
  {
    seq(n, _ => ChargeAttempted(invoiceId))
  }

  /** The block `retry` runs in `handleNetworkException`: the i-th retried
      charge is gateway call `pos + i`. */
  function GatewayFrom(env: Env, pos: nat): nat -> Outcome<bool> {
    (i: nat) => env.gateway(pos + i)
  }

  /** `handleChargingExceptions`: one handler per exception kind; none of
      them writes an invoice status except through the network handler. */
  function HandleChargingExceptions(st: Billing, e: Exn, inv: Invoice, env: Env): (r: Billing)
    ensures r.locks == st.locks && r.lockStoreCalls == st.lockStoreCalls
    ensures StatusStep(st.invoices, r.invoices, inv)
    ensures NoLockCallAdded(st.log, r.log)
    ensures st.networkFailedChargings <= r.networkFailedChargings <= st.networkFailedChargings + 1
    ensures st.gatewayCalls <= r.gatewayCalls <= st.gatewayCalls + DefaultMaxRetries
    ensures !e.NetworkException? ==> OnlyInvoicesAndLog(st, r) && r.invoices == st.invoices
    ensures !e.NetworkException? ==> |r.log| == |st.log| + 1
    decreases if e.NetworkException? then 1 else 0, 1
  {
    match e
    case CustomerNotFoundException(_) => st.(log := st.log + [CustomerNotFoundHandled(inv.customerId)])
    case CurrencyMismatchException(_, _) => st.(log := st.log + [CurrencyMismatchHandled(inv)])
    case NetworkException => HandleNetworkException(st, inv, env)
    case LockException => st.(log := st.log + [LockProblemHandled(inv.customerId)])
    case _ => st.(log := st.log + [UnknownErrorLogged(e)])
  }

  /** `handleNetworkException`: the charge is re-run through `retry` with
      the default bounds. A value is handled like a direct answer; an
      unavailable provider only bumps the counter; anything else is
      dispatched again, and cannot be a NetworkException. */
  function HandleNetworkException(st: Billing, inv: Invoice, env: Env): (r: Billing)
    ensures r.locks == st.locks && r.lockStoreCalls == st.lockStoreCalls
    ensures StatusStep(st.invoices, r.invoices, inv)
    ensures NoLockCallAdded(st.log, r.log)
    ensures st.networkFailedChargings <= r.networkFailedChargings <= st.networkFailedChargings + 1
    ensures r.networkFailedChargings != st.networkFailedChargings ==> r.invoices == st.invoices
    ensures st.gatewayCalls < r.gatewayCalls <= st.gatewayCalls + DefaultMaxRetries
    decreases 1, 0
  {
    var run := Retry(DefaultMaxRetries, DefaultWaitTimeInSeconds, GatewayFrom(env, st.gatewayCalls));
    var st1 := st.(gatewayCalls := st.gatewayCalls + run.invocations,
                   log := st.log + Charges(inv.id, run.invocations));
    if run.result.Returned? then HandleCustomerChargeResponse(st1, inv, run.result.value)
    else if run.result.error.ExternalServiceNotAvailableException? then
      var failed := st1.networkFailedChargings + 1;
      st1.(networkFailedChargings := failed, log := st1.log + [ProviderUnavailableLogged(failed)])
    else HandleChargingExceptions(st1, run.result.error, inv, env)
  }

  /** `lockingService.getLock(customerId)`. */
  function GetLockStep(st: Billing, env: Env, c: int): (r: Called<Option<Lock>>)
    ensures r.state.locks == st.locks
    ensures r.state.log == st.log + [GetLockCalled(c)]
    ensures r.outcome.Threw? ==> r.outcome.error == LockException
    ensures r.outcome.Returned? ==> (r.outcome.value.Some? <==> c in LockDal.Holders(st.locks))
  {
    var call := LockingService.GetLock(st.locks, env.lockStore, st.lockStoreCalls, c);
    Called(st.(lockStoreCalls := st.lockStoreCalls + call.dalCalls, log := st.log + [GetLockCalled(c)]),
           call.outcome)
  }

  /** `lockingService.setLock(customerId)`. */
  function SetLockStep(st: Billing, env: Env, c: int): (r: Called<()>)
    ensures r.state.log == st.log + [SetLockCalled(c)]
    ensures r.outcome.Threw? ==> r.outcome.error == LockException && r.state.locks == st.locks
    ensures r.outcome.Returned? ==> LockDal.Holders(r.state.locks) == LockDal.Holders(st.locks) + multiset{c}
  {
    var call := LockingService.SetLock(st.locks, env.lockStore, st.lockStoreCalls, c);
    Called(st.(locks := call.table, lockStoreCalls := st.lockStoreCalls + call.dalCalls,
               log := st.log + [SetLockCalled(c)]),
           call.outcome)
  }

  /** `lockingService.releaseLock(customerId)`. */
  function ReleaseLockStep(st: Billing, env: Env, c: int): (r: Called<()>)
    ensures r.state.log == st.log + [ReleaseLockCalled(c)]
    ensures r.outcome.Threw? ==> r.outcome.error == LockException && r.state.locks == st.locks
    ensures r.outcome.Returned? ==> LockDal.Holders(r.state.locks) == LockDal.Holders(st.locks)[c := 0]
  {
    var call := LockingService.ReleaseLock(st.locks, env.lockStore, st.lockStoreCalls, c);
    Called(st.(locks := call.table, lockStoreCalls := st.lockStoreCalls + call.dalCalls,
               log := st.log + [ReleaseLockCalled(c)]),
           call.outcome)
  }

  /** `paymentProvider.charge(invoice)`, called directly. */
  function ChargeStep(st: Billing, env: Env, inv: Invoice): (r: Called<bool>)
    ensures r.outcome == env.gateway(st.gatewayCalls)
    ensures r.state == st.(gatewayCalls := st.gatewayCalls + 1, log := st.log + [ChargeAttempted(inv.id)])
  {
    Called(st.(gatewayCalls := st.gatewayCalls + 1, log := st.log + [ChargeAttempted(inv.id)]),
           env.gateway(st.gatewayCalls))
  }

  /** The `catch` block of `chargeSingleCustomerInvoice`: dispatch, then
      release the lock; a failing release escapes as LockException. */
  function CatchPath(st: Billing, e: Exn, inv: Invoice, env: Env): (r: Step)
    ensures StatusStep(st.invoices, r.state.invoices, inv)
    ensures NoProbeAdded(st.log, r.state.log)
    ensures r.escaped.Some? ==> r.escaped == Some(LockException)
    ensures r.escaped.None? ==> LockDal.Holders(r.state.locks)[inv.customerId] == 0
    ensures forall d :: d != inv.customerId ==>
      LockDal.Holders(r.state.locks)[d] == LockDal.Holders(st.locks)[d]
    ensures st.networkFailedChargings <= r.state.networkFailedChargings <= st.networkFailedChargings + 1
    ensures st.gatewayCalls <= r.state.gatewayCalls <= st.gatewayCalls + DefaultMaxRetries
    ensures !e.NetworkException? ==> r.state.gatewayCalls == st.gatewayCalls && r.state.invoices == st.invoices
  {
    var handled := HandleChargingExceptions(st, e, inv, env);
    var released := ReleaseLockStep(handled, env, inv.customerId);
    Step(released.state, if released.outcome.Threw? then Some(released.outcome.error) else None)
  }

  /** The catch block ends with the release: its last event is the
      `releaseLock` of the invoice's customer, and the handler before it
      makes no lock call. */
  lemma CatchPathReleasesLast(st: Billing, e: Exn, inv: Invoice, env: Env)
    ensures var r := CatchPath(st, e, inv, env);
      && |st.log| < |r.state.log|
      && r.state.log[|r.state.log| - 1] == ReleaseLockCalled(inv.customerId)
      && NoLockCallAdded(st.log, r.state.log[..|r.state.log| - 1])
  {
    var handled := HandleChargingExceptions(st, e, inv, env);
    var released := ReleaseLockStep(handled, env, inv.customerId);
    assert released.state.log[..|released.state.log| - 1] == handled.log;
  }

  /** What processing one invoice guarantees, from a state in which its
      customer's lock is already taken (`locked`) or not yet probed. Only
      that invoice's status moves, and only towards PAID or FAILED; only an
      unreleasable lock escapes; no other customer's lock rows change; the
      network-failure counter grows by at most one; at most `charges`
      gateway calls are made; the log only grows. */
  ghost predicate InvoiceProcessed(st: Billing, r: Step, inv: Invoice, charges: nat) {
    && StatusStep(st.invoices, r.state.invoices, inv)
    && (r.escaped.Some? ==> r.escaped == Some(LockException))
    && (forall d :: d != inv.customerId ==>
          LockDal.Holders(r.state.locks)[d] == LockDal.Holders(st.locks)[d])
    && st.networkFailedChargings <= r.state.networkFailedChargings <= st.networkFailedChargings + 1
    && st.gatewayCalls <= r.state.gatewayCalls <= st.gatewayCalls + charges
    && st.log <= r.state.log
  }

  /** After the answer was handled: release the lock. */
  function ReleaseAfterCharge(st: Billing, inv: Invoice, env: Env): (r: Step)
    ensures InvoiceProcessed(st, r, inv, 0)
    ensures r.state.invoices == st.invoices
    ensures r.escaped.None? ==> LockDal.Holders(r.state.locks)[inv.customerId] == 0
    ensures NoProbeAdded(st.log, r.state.log)
  {
    var released := ReleaseLockStep(st, env, inv.customerId);
    if released.outcome.Threw? then CatchPath(released.state, released.outcome.error, inv, env)
    else Step(released.state, None)
  }

  /** With the lock taken: charge, handle the answer, release. */
  function ChargeLocked(st: Billing, inv: Invoice, env: Env): (r: Step)
    ensures InvoiceProcessed(st, r, inv, MaxChargesPerInvoice)
    ensures r.escaped.None? ==> LockDal.Holders(r.state.locks)[inv.customerId] == 0
    ensures NoProbeAdded(st.log, r.state.log)
  {
    var charged := ChargeStep(st, env, inv);
    if charged.outcome.Threw? then CatchPath(charged.state, charged.outcome.error, inv, env)
    else ReleaseAfterCharge(HandleCustomerChargeResponse(charged.state, inv, charged.outcome.value), inv, env)
  }

  /** No lock was found: take it, then charge. */
  function LockAndCharge(st: Billing, inv: Invoice, env: Env): (r: Step)
    ensures InvoiceProcessed(st, r, inv, MaxChargesPerInvoice)
    ensures r.escaped.None? ==> LockDal.Holders(r.state.locks)[inv.customerId] == 0
    ensures NoProbeAdded(st.log, r.state.log)
  {
    var locked := SetLockStep(st, env, inv.customerId);
    if locked.outcome.Threw? then CatchPath(locked.state, locked.outcome.error, inv, env)
    else ChargeLocked(locked.state, inv, env)
  }

  /** `chargeSingleCustomerInvoice`: probe the lock, take it, charge,
      handle the answer, release; any exception goes to `CatchPath`. A
      customer that already holds a lock is skipped without a release. */
  function ChargeSingleCustomerInvoice(st: Billing, inv: Invoice, env: Env): (r: Step)
    ensures InvoiceProcessed(st, r, inv, MaxChargesPerInvoice)
    ensures r.escaped.None? ==>
      r.state.locks == st.locks || LockDal.Holders(r.state.locks)[inv.customerId] == 0
    ensures |st.log| < |r.state.log| && r.state.log[|st.log|] == GetLockCalled(inv.customerId)
    ensures NoProbeAdded(st.log + [GetLockCalled(inv.customerId)], r.state.log)
  {
    var probed := GetLockStep(st, env, inv.customerId);
    if probed.outcome.Threw? then CatchPath(probed.state, probed.outcome.error, inv, env)
    else if probed.outcome.value.Some? then Step(probed.state, None)
    else LockAndCharge(probed.state, inv, env)
  }

  /** The ids of a list of invoices. */
  function Ids(invs: seq<Invoice>): set<int> {
    set i | 0 <= i < |invs| :: invs[i].id
  }

  /** The customers of a list of invoices, in list order. */
  function CustomersOf(invs: seq<Invoice>): (r: seq<int>)
    ensures |r| == |invs|
  {
    if invs == [] then [] else [invs[0].customerId] + CustomersOf(invs[1..])
  }

  /** The customers whose lock was probed, in log order. */
  function Probes(log: seq<Event>): seq<int> {
    if log == [] then []
    else (if log[0].GetLockCalled? then [log[0].customerId] else []) + Probes(log[1..])
  }

  lemma {:induction false} ProbesAppend(a: seq<Event>, b: seq<Event>)
    ensures Probes(a + b) == Probes(a) + Probes(b)
  {
    if a == [] {
      assert a + b == b;
    } else {
      assert (a + b)[0] == a[0];
      assert (a + b)[1..] == a[1..] + b;
      ProbesAppend(a[1..], b);
    }
  }

  lemma {:induction false} NoProbes(log: seq<Event>)
    requires forall i :: 0 <= i < |log| ==> !log[i].GetLockCalled?
    ensures Probes(log) == []
  {
    if log != [] {
      NoProbes(log[1..]);
    }
  }

  /** The new events of one invoice: a single lock probe, for its customer, first. */
  lemma ProbesOfOneInvoice(st: Billing, inv: Invoice, env: Env)
    ensures var r := ChargeSingleCustomerInvoice(st, inv, env);
      Probes(r.state.log[|st.log|..]) == [inv.customerId]
  {
    var r := ChargeSingleCustomerInvoice(st, inv, env);
    var added := r.state.log[|st.log|..];
    assert added == [GetLockCalled(inv.customerId)] + added[1..];
    NoProbes(added[1..]);
    ProbesAppend([GetLockCalled(inv.customerId)], added[1..]);
  }

  /** `chargeCustomersInvoices`' loop: each invoice in list order, each once;
      an escaping exception ends the pass. */
  function ProcessInvoices(st: Billing, invs: seq<Invoice>, env: Env): (r: Step)
    ensures r.escaped.Some? ==> r.escaped == Some(LockException)
    ensures st.log <= r.state.log
    ensures st.networkFailedChargings <= r.state.networkFailedChargings <= st.networkFailedChargings + |invs|
    ensures st.gatewayCalls <= r.state.gatewayCalls <= st.gatewayCalls + |invs| * MaxChargesPerInvoice
    ensures r.state.invoices.Keys == st.invoices.Keys
    ensures forall id :: id in st.invoices && id !in Ids(invs) ==> r.state.invoices[id] == st.invoices[id]
    decreases |invs|
  {
    if invs == [] then Step(st, None)
    else
      var first := ChargeSingleCustomerInvoice(st, invs[0], env);
      assert Ids(invs) == {invs[0].id} + Ids(invs[1..]);
      var budget := |invs[1..]| * MaxChargesPerInvoice;
      assert |invs| * MaxChargesPerInvoice == budget + MaxChargesPerInvoice && budget >= 0;
      assert first.state.gatewayCalls <= st.gatewayCalls + MaxChargesPerInvoice;
      if first.escaped.Some? then first
      else ProcessInvoices(first.state, invs[1..], env)
  }

  /** A status step moves no invoice away from its key. */
  lemma StatusStepKeepsKeys(before: AntaeusDal.InvoiceTable, after: AntaeusDal.InvoiceTable, inv: Invoice)
    requires StatusStep(before, after, inv)
    ensures AntaeusDal.InvoicesKeyed(before) ==> AntaeusDal.InvoicesKeyed(after)
  {
    if AntaeusDal.InvoicesKeyed(before) && inv.id in before {
      assert after[inv.id].id == after[inv.id].(status := before[inv.id].status).id;
    }
  }

  /** A pass keeps every invoice stored under its own id. */
  lemma {:induction false} PassKeepsInvoicesKeyed(st: Billing, invs: seq<Invoice>, env: Env)
    requires AntaeusDal.InvoicesKeyed(st.invoices)
    ensures AntaeusDal.InvoicesKeyed(ProcessInvoices(st, invs, env).state.invoices)
    decreases |invs|
  {
    if invs != [] {
      var first := ChargeSingleCustomerInvoice(st, invs[0], env);
      StatusStepKeepsKeys(st.invoices, first.state.invoices, invs[0]);
      if first.escaped.None? {
        PassKeepsInvoicesKeyed(first.state, invs[1..], env);
      }
    }
  }

  /** `chargeCustomersInvoices`: fetch the PENDING and FAILED invoices once,
      then charge each. PAID invoices are never touched. */
  function ChargeCustomersInvoices(st: Billing, env: Env): (r: Step)
    requires AntaeusDal.InvoicesKeyed(st.invoices)
    ensures r.escaped.Some? ==> r.escaped == Some(LockException)
    ensures st.log <= r.state.log
    ensures st.networkFailedChargings <= r.state.networkFailedChargings
    ensures AntaeusDal.InvoicesKeyed(r.state.invoices)
    ensures forall id :: id in st.invoices && st.invoices[id].status == Paid ==>
      id in r.state.invoices && r.state.invoices[id] == st.invoices[id]
  {
    var fetched := AntaeusDal.FetchInvoicesByStatus(st.invoices, Chargeable);
    assert forall id :: id in st.invoices && st.invoices[id].status == Paid ==> id !in Ids(fetched);
    PassKeepsInvoicesKeyed(st, fetched, env);
    ProcessInvoices(st, fetched, env)
  }
}

=== FILE: calendar.dfy ===
/** The part of `java.time.LocalDateTime` the billing scheduler relies on:
    the ISO calendar (proleptic Gregorian), the `with...` adjusters that
    throw DateTimeException on an out-of-range field, and
    `Duration.between(a, b).toMillis()`. */
module Calendar {
  import opened Exceptions

  const MinYear: int := -999_999_999
  const MaxYear: int := 999_999_999
  const NanosPerMilli: int := 1_000_000
  const NanosPerDay: int := 86_400 * 1_000_000_000
  const MillisPerDay: int := 86_400_000

  /** The Gregorian leap-year rule, applied to every year. */
  predicate IsLeapYear(y: int) {
    y % 4 == 0 && (y % 100 != 0 || y % 400 == 0)
  }

  function YearLength(y: int): int {
    if IsLeapYear(y) then 366 else 365
  }

  function DaysInMonth(y: int, m: int): (r: int)
    requires 1 <= m <= 12
    ensures 28 <= r <= 31
    ensures m == 2 ==> (r == 29 <==> IsLeapYear(y))
  {
    if m == 2 then (if IsLeapYear(y) then 29 else 28)
    else if m == 4 || m == 6 || m == 9 || m == 11 then 30
    else 31
  }

  datatype LocalDateTime = LocalDateTime(year: int, month: int, day: int,
                                         hour: int, minute: int, second: int, nano: int)

  /** The values a LocalDateTime can hold. */
  predicate Valid(t: LocalDateTime) {
    && MinYear <= t.year <= MaxYear
    && 1 <= t.month <= 12
    && 1 <= t.day <= DaysInMonth(t.year, t.month)
    && 0 <= t.hour < 24 && 0 <= t.minute < 60 && 0 <= t.second < 60
    && 0 <= t.nano < 1_000_000_000
  }

  /** `withMonth(m)`: DateTimeException outside 1..12; otherwise the day is
      clamped to the new month's length. */
  function WithMonth(t: LocalDateTime, m: int): (r: Outcome<LocalDateTime>)
    requires Valid(t)
    ensures r.Threw? <==> !(1 <= m <= 12)
    ensures r.Threw? ==> r.error == DateTimeException
    ensures r.Returned? ==> Valid(r.value) && r.value.month == m && r.value.year == t.year
    ensures r.Returned? && t.day <= DaysInMonth(t.year, m) ==> r.value == t.(month := m)
    ensures r.Returned? && t.day > DaysInMonth(t.year, m) ==>
      r.value == t.(month := m, day := DaysInMonth(t.year, m))
  {
    if !(1 <= m <= 12) then Threw(DateTimeException)
    else
      var len := DaysInMonth(t.year, m);
      Returned(t.(month := m, day := if t.day <= len then t.day else len))
  }

  /** `withDayOfMonth(d)`: DateTimeException unless the day exists in that month. */
  function WithDayOfMonth(t: LocalDateTime, d: int): (r: Outcome<LocalDateTime>)
    requires Valid(t)
    ensures r.Threw? <==> !(1 <= d <= DaysInMonth(t.year, t.month))
    ensures r.Threw? ==> r.error == DateTimeException
    ensures r.Returned? ==> Valid(r.value) && r.value == t.(day := d)
  {
    if 1 <= d <= DaysInMonth(t.year, t.month) then Returned(t.(day := d)) else Threw(DateTimeException)
  }

  /** `withHour(h)`: DateTimeException outside 0..23. */
  function WithHour(t: LocalDateTime, h: int): (r: Outcome<LocalDateTime>)
    requires Valid(t)
    ensures r.Threw? <==> !(0 <= h < 24)
    ensures r.Threw? ==> r.error == DateTimeException
    ensures r.Returned? ==> Valid(r.value) && r.value == t.(hour := h)
  {
    if 0 <= h < 24 then Returned(t.(hour := h)) else Threw(DateTimeException)
  }

  /** `plusMonths(1)`: the next month, rolling over into the next year
      after December; the day is clamped like `withMonth`. Only the year
      can leave its range. */
  function PlusOneMonth(t: LocalDateTime): (r: Outcome<LocalDateTime>)
    requires Valid(t)
    ensures r.Threw? <==> t.month == 12 && t.year == MaxYear
    ensures r.Returned? ==> Valid(r.value)
    ensures r.Returned? ==> r.value.month == (if t.month == 12 then 1 else t.month + 1)
    ensures r.Returned? ==> r.value.year == (if t.month == 12 then t.year + 1 else t.year)
  {
    if t.month < 12 then WithMonth(t, t.month + 1)
    else if t.year == MaxYear then Threw(DateTimeException)
    else
      var next := t.(year := t.year + 1);
      Returned(next.(month := 1))
  }

  /** Days in the years before `y`, counted from year 0 (negative for
      negative years): 365 per year plus the leap days, with floor division. */
  function DaysBeforeYear(y: int): int {
    365 * y + (y + 3) / 4 - (y + 99) / 100 + (y + 399) / 400
  }

  /** Days in the months of year `y` before month `m`. */
  function DaysBeforeMonth(y: int, m: int): (r: int)
    requires 1 <= m <= 12
    decreases m
  {
    if m == 1 then 0 else DaysBeforeMonth(y, m - 1) + DaysInMonth(y, m - 1)
  }

  /** The number of a calendar day, counted from 0000-01-01. */
  function DayNumber(y: int, m: int, d: int): int
    requires 1 <= m <= 12
  {
    DaysBeforeYear(y) + DaysBeforeMonth(y, m) + d - 1
  }

  /** Nanoseconds since 0000-01-01T00:00. */
  function EpochNanos(t: LocalDateTime): int
    requires 1 <= t.month <= 12
  {
    DayNumber(t.year, t.month, t.day) * NanosPerDay
      + ((t.hour * 60 + t.minute) * 60 + t.second) * 1_000_000_000 + t.nano
  }

  /** Java's `/` on longs: the quotient truncated toward zero. */
  function TruncDiv(n: int, d: int): (r: int)
    requires d > 0
    ensures n >= 0 ==> 0 <= r && r * d <= n < r * d + d
    ensures n < 0 ==> r <= 0 && r * d - d < n <= r * d
  {
    if n >= 0 then n / d else -((-n) / d)
  }

  /** `Duration.between(a, b).toMillis()`: the elapsed nanoseconds in
      milliseconds, truncated toward zero, forwards and backwards alike. */
  function BetweenMillis(a: LocalDateTime, b: LocalDateTime): (r: int)
    requires 1 <= a.month <= 12 && 1 <= b.month <= 12
    ensures EpochNanos(a) <= EpochNanos(b) ==>
      0 <= r && r * NanosPerMilli <= EpochNanos(b) - EpochNanos(a) < (r + 1) * NanosPerMilli
    ensures EpochNanos(b) < EpochNanos(a) ==>
      r <= 0 && (r - 1) * NanosPerMilli < EpochNanos(b) - EpochNanos(a) <= r * NanosPerMilli
  {
    TruncDiv(EpochNanos(b) - EpochNanos(a), NanosPerMilli)
  }

  /** A year has 365 days, 366 in a leap year: the counting of leap days in
      `DaysBeforeYear` agrees with the leap-year rule. */
  lemma DaysBeforeNextYear(y: int)
    ensures DaysBeforeYear(y + 1) - DaysBeforeYear(y) == YearLength(y)
  {
    assert DaysBeforeYear(y + 1) == 365 * y + 365 + (y + 4) / 4 - (y + 100) / 100 + (y + 400) / 400;
    MultiplesOf4(y);
    MultiplesOf100(y);
    MultiplesOf400(y);
    DivisibilityChain(y);
  }

  /** A multiple of 400 is one of 100, and a multiple of 100 one of 4. */
  lemma DivisibilityChain(y: int)
    ensures y % 400 == 0 ==> y % 100 == 0
    ensures y % 100 == 0 ==> y % 4 == 0
  {
    if y % 400 == 0 {
      Multiple100(4 * (y / 400));
    }
    if y % 100 == 0 {
      Multiple4(25 * (y / 100));
    }
  }

  /** Remainders of constant multiples, stated apart: in the middle of a
      larger proof the solver does not find them reliably. */
  lemma Multiple100(k: int)
    ensures (100 * k) % 100 == 0
  {
  }

  lemma Multiple4(k: int)
    ensures (4 * k) % 4 == 0
  {
  }

  /** Moving from year y to y + 1 adds one multiple of 4 to the count
      exactly when y is one; likewise for 100 and 400. */
  lemma MultiplesOf4(y: int)
    ensures (y + 4) / 4 - (y + 3) / 4 == if y % 4 == 0 then 1 else 0
  {
    var q, r := (y + 3) / 4, (y + 3) % 4;
    assert (y + 4) / 4 == (if r == 3 then q + 1 else q);
    assert (y % 4 == 0) == (r == 3);
  }

  lemma MultiplesOf100(y: int)
    ensures (y + 100) / 100 - (y + 99) / 100 == if y % 100 == 0 then 1 else 0
  {
    var q, r := (y + 99) / 100, (y + 99) % 100;
    assert (y + 100) / 100 == (if r == 99 then q + 1 else q);
    assert (y % 100 == 0) == (r == 99);
  }

  lemma MultiplesOf400(y: int)
    ensures (y + 400) / 400 - (y + 399) / 400 == if y % 400 == 0 then 1 else 0
  {
    var q, r := (y + 399) / 400, (y + 399) % 400;
    assert (y + 400) / 400 == (if r == 399 then q + 1 else q);
    assert (y % 400 == 0) == (r == 399);
  }

  /** The months of a year add up to the year's length. */
  lemma MonthsFillTheYear(y: int)
    ensures DaysBeforeMonth(y, 12) + DaysInMonth(y, 12) == YearLength(y)
  {
  }

  /** Consecutive calendar days have consecutive numbers, within a month,
      across a month end and across a year end. */
  lemma NextDayIsNextNumber(t: LocalDateTime)
    requires Valid(t)
    ensures t.day < DaysInMonth(t.year, t.month) ==>
      DayNumber(t.year, t.month, t.day + 1) == DayNumber(t.year, t.month, t.day) + 1
    ensures t.day == DaysInMonth(t.year, t.month) && t.month < 12 ==>
      DayNumber(t.year, t.month + 1, 1) == DayNumber(t.year, t.month, t.day) + 1
    ensures t.day == DaysInMonth(t.year, t.month) && t.month == 12 ==>
      DayNumber(t.year + 1, 1, 1) == DayNumber(t.year, t.month, t.day) + 1
  {
    DaysBeforeNextYear(t.year);
    MonthsFillTheYear(t.year);
  }

  /** Adding whole days to an instant keeps its time of day and moves its
      date by that many day numbers. */
  lemma ShiftByWholeDays(a: LocalDateTime, b: LocalDateTime, days: int)
    requires 1 <= a.month <= 12 && 1 <= b.month <= 12
    requires a.hour == b.hour && a.minute == b.minute && a.second == b.second && a.nano == b.nano
    requires DayNumber(b.year, b.month, b.day) == DayNumber(a.year, a.month, a.day) + days
    ensures EpochNanos(a) + days * MillisPerDay * NanosPerMilli == EpochNanos(b)
  {
    assert days * MillisPerDay * NanosPerMilli == days * NanosPerDay;
  }

  /** The milliseconds between two times of day that differ only in their
      date: whole days. */
  lemma BetweenSameTimeOfDay(a: LocalDateTime, b: LocalDateTime)
    requires 1 <= a.month <= 12 && 1 <= b.month <= 12
    requires a.hour == b.hour && a.minute == b.minute && a.second == b.second && a.nano == b.nano
    ensures BetweenMillis(a, b) ==
      (DayNumber(b.year, b.month, b.day) - DayNumber(a.year, a.month, a.day)) * MillisPerDay
  {
  }
}

=== FILE: exceptions.dfy ===
/** The exception kinds the billing core throws and catches, and the
    outcome of one fallible call. Kotlin's exceptions become values here:
    a call either returns a value or throws one of these kinds. */
module Exceptions {

  /** Exception classes the core distinguishes. Everything it does not
      distinguish (a database error, an unexpected runtime error, ...) is
      `OtherException`, tagged with an opaque code. */
  datatype Exn =
    | NetworkException
    | ExternalServiceNotAvailableException
    | CustomerNotFoundException(customerId: int)
    | CurrencyMismatchException(invoiceId: int, customerId: int)
    | LockException
    | DateTimeException
    | IllegalArgumentException
    | OtherException(code: int)

  /** What one invocation of a fallible block did. */
  datatype Outcome<+T> = Returned(value: T) | Threw(error: Exn)

  /** Kotlin's nullable values. */
  datatype Option<+T> = None | Some(value: T)
}

=== FILE: lock_dal.dfy ===
/** The lock table of `LockDal.kt` (and the identical lock operations of
    `AntaeusDal.kt`). The table is a sequence of rows in insertion order;
    row ids come from an auto-increment counter. Seen as a multiset of
    customer ids, insert adds one occurrence, delete removes all of them. */
module LockDal {
  import opened Exceptions
  import opened Models

  datatype LockTable = LockTable(rows: seq<Lock>, nextId: int)

  /** The customer ids of the rows, with multiplicity. */
  function HoldersOf(rows: seq<Lock>): multiset<int> {
    if rows == [] then multiset{} else multiset{rows[0].customerId} + HoldersOf(rows[1..])
  }

  function Holders(t: LockTable): multiset<int> {
    HoldersOf(t.rows)
  }

  lemma {:induction false} HoldersOfAppend(rows: seq<Lock>, l: Lock)
    ensures HoldersOf(rows + [l]) == HoldersOf(rows) + multiset{l.customerId}
  {
    if rows != [] {
      assert (rows + [l])[1..] == rows[1..] + [l];
      HoldersOfAppend(rows[1..], l);
    }
  }

  lemma {:induction false} HoldersOfContains(rows: seq<Lock>, c: int)
    ensures c in HoldersOf(rows) <==> exists i :: 0 <= i < |rows| && rows[i].customerId == c
  {
    if rows != [] {
      HoldersOfContains(rows[1..], c);
      if c in HoldersOf(rows[1..]) {
        var i :| 0 <= i < |rows[1..]| && rows[1..][i].customerId == c;
        assert rows[i + 1].customerId == c;
      }
      if exists i :: 0 <= i < |rows| && rows[i].customerId == c {
        var i :| 0 <= i < |rows| && rows[i].customerId == c;
        if i > 0 {
          assert rows[1..][i - 1].customerId == c;
        }
      }
    }
  }

  /** The rows of customers other than `c`, in their original order. */
  function RowsNotOf(rows: seq<Lock>, c: int): (r: seq<Lock>)
    ensures HoldersOf(r) == HoldersOf(rows)[c := 0]
    decreases |rows|
  {
    if rows == [] then []
    else
      var rest := RowsNotOf(rows[1..], c);
      if rows[0].customerId == c then rest else [rows[0]] + rest
  }

  /** The first row of customer `c`, if any. */
  function FirstRowOf(rows: seq<Lock>, c: int): (r: Option<Lock>)
    ensures r.Some? ==> r.value.customerId == c && r.value in rows
    decreases |rows|
  {
    if rows == [] then None
    else if rows[0].customerId == c then Some(rows[0])
    else FirstRowOf(rows[1..], c)
  }

  /** `FirstRowOf` finds the earliest row of the customer, and finds none
      only when the customer has no row. */
  lemma {:induction false} FirstRowOfIsFirst(rows: seq<Lock>, c: int)
    ensures var r := FirstRowOf(rows, c);
      && (r.Some? ==> exists i :: (0 <= i < |rows| && rows[i] == r.value &&
            forall j :: 0 <= j < i ==> rows[j].customerId != c))
      && (r.None? ==> forall i :: 0 <= i < |rows| ==> rows[i].customerId != c)
    decreases |rows|
  {
    if rows != [] && rows[0].customerId != c {
      FirstRowOfIsFirst(rows[1..], c);
      var r := FirstRowOf(rows[1..], c);
      if r.Some? {
        var i :| 0 <= i < |rows[1..]| && rows[1..][i] == r.value &&
          forall j :: 0 <= j < i ==> rows[1..][j].customerId != c;
        assert rows[i + 1] == r.value;
        forall j | 0 <= j < i + 1 ensures rows[j].customerId != c {
          if j > 0 { assert rows[j] == rows[1..][j - 1]; }
        }
      } else {
        forall i | 0 <= i < |rows| ensures rows[i].customerId != c {
          if i > 0 { assert rows[i] == rows[1..][i - 1]; }
        }
      }
    } else if rows != [] {
      assert rows[0] == FirstRowOf(rows, c).value;
    }
  }

  /** `getLock(customerId)`: the first row whose customerId matches, or null. */
  function GetLock(t: LockTable, c: int): (r: Option<Lock>)
    ensures r.Some? <==> c in Holders(t)
    ensures r.Some? ==> r.value.customerId == c && r.value in t.rows
    ensures r.Some? ==> exists i :: (0 <= i < |t.rows| && t.rows[i] == r.value &&
      forall j :: 0 <= j < i ==> t.rows[j].customerId != c)
  {
    HoldersOfContains(t.rows, c);
    FirstRowOfIsFirst(t.rows, c);
    FirstRowOf(t.rows, c)
  }

  /** `setLock(customerId)`: inserts one new row for the customer. */
  function SetLock(t: LockTable, c: int): (r: LockTable)
    ensures Holders(r) == Holders(t) + multiset{c}
    ensures GetLock(r, c).Some?
  {
    HoldersOfAppend(t.rows, Lock(t.nextId, c));
    LockTable(t.rows + [Lock(t.nextId, c)], t.nextId + 1)
  }

  /** `releaseLock(customerId)`: deletes every row of the customer. */
  function ReleaseLock(t: LockTable, c: int): (r: LockTable)
    ensures Holders(r) == Holders(t)[c := 0]
    ensures GetLock(r, c).None?
  {
    LockTable(RowsNotOf(t.rows, c), t.nextId)
  }

  /** Insert is not idempotent: two inserts without a release leave two rows. */
  lemma SetLockTwiceLeavesTwoRows(t: LockTable, c: int)
    ensures Holders(SetLock(SetLock(t, c), c))[c] == Holders(t)[c] + 2
  {
  }

  /** Release undoes any number of inserts for the customer and touches no
      other customer's rows. */
  lemma ReleaseAfterSetLock(t: LockTable, c: int, d: int)
    ensures Holders(ReleaseLock(SetLock(t, c), c))[d] == if d == c then 0 else Holders(t)[d]
    ensures c !in Holders(t) ==> Holders(ReleaseLock(SetLock(t, c), c)) == Holders(t)
  {
  }
}

=== FILE: locking_service.dfy ===
/** `LockingService.kt`: each lock operation runs the matching lock-table
    operation inside `retry` with the default bounds, and turns any failure
    into LockException.

    Whether the database call behind the k-th lock-table invocation throws
    is given by an oracle `faults(k)`: `None` means that invocation
    completed, `Some(e)` that it threw `e` and changed nothing (the
    statement runs in its own transaction). `pos` is the number of
    lock-table invocations made before this call. */
module LockingService {
  import opened Exceptions
  import opened Models
  import LockDal
  import opened Resiliency

  /** One LockingService call: the lock table afterwards, what the call
      returned or threw, and how many lock-table invocations it made. */
  datatype LockCall<+T> = LockCall(table: LockDal.LockTable, outcome: Outcome<T>, dalCalls: nat)

  /** One lock-table invocation that yields `value` unless the database call throws. */
  function DalAttempt<T>(fault: Option<Exn>, value: T): Outcome<T> {
    if fault.Some? then Threw(fault.value) else Returned(value)
  }

  /** The block handed to `retry`: its i-th invocation is lock-table invocation pos + i. */
  function DalBlock<T>(faults: nat -> Option<Exn>, pos: nat, value: T): nat -> Outcome<T> {
    (i: nat) => DalAttempt(faults(pos + i), value)
  }

  /** The `catch (ex: Exception) { throw LockException() }` around each call. */
  function AsLockException<T>(o: Outcome<T>): (r: Outcome<T>)
    ensures r.Threw? <==> o.Threw?
    ensures r.Threw? ==> r.error == LockException
    ensures o.Returned? ==> r == o
  {
    if o.Threw? then Threw(LockException) else o
  }

  /** `setLock(customerId)`. */
  function SetLock(t: LockDal.LockTable, faults: nat -> Option<Exn>, pos: nat, c: int): (r: LockCall<()>)
    ensures 1 <= r.dalCalls <= DefaultMaxRetries
    ensures r.outcome.Threw? ==> r.outcome.error == LockException && r.table == t
    ensures r.outcome.Returned? ==> r.table == LockDal.SetLock(t, c)
    ensures r.outcome.Returned? ==> LockDal.Holders(r.table) == LockDal.Holders(t) + multiset{c}
  {
    var run := Retry(DefaultMaxRetries, DefaultWaitTimeInSeconds, DalBlock(faults, pos, ()));
    LockCall(if run.result.Returned? then LockDal.SetLock(t, c) else t,
             AsLockException(run.result), run.invocations)
  }

  /** `releaseLock(customerId)`. */
  function ReleaseLock(t: LockDal.LockTable, faults: nat -> Option<Exn>, pos: nat, c: int): (r: LockCall<()>)
    ensures 1 <= r.dalCalls <= DefaultMaxRetries
    ensures r.outcome.Threw? ==> r.outcome.error == LockException && r.table == t
    ensures r.outcome.Returned? ==> r.table == LockDal.ReleaseLock(t, c)
    ensures r.outcome.Returned? ==> c !in LockDal.Holders(r.table)
    ensures forall d :: d != c ==> LockDal.Holders(r.table)[d] == LockDal.Holders(t)[d]
  {
    var run := Retry(DefaultMaxRetries, DefaultWaitTimeInSeconds, DalBlock(faults, pos, ()));
    LockCall(if run.result.Returned? then LockDal.ReleaseLock(t, c) else t,
             AsLockException(run.result), run.invocations)
  }

  /** `getLock(customerId)`: on success exactly the lock table's answer. */
  function GetLock(t: LockDal.LockTable, faults: nat -> Option<Exn>, pos: nat, c: int): (r: LockCall<Option<Lock>>)
    ensures 1 <= r.dalCalls <= DefaultMaxRetries
    ensures r.table == t
    ensures r.outcome.Threw? ==> r.outcome.error == LockException
    ensures r.outcome.Returned? ==> r.outcome.value == LockDal.GetLock(t, c)
  {
    var run := Retry(DefaultMaxRetries, DefaultWaitTimeInSeconds, DalBlock(faults, pos, LockDal.GetLock(t, c)));
    DalRetryOutcome(faults, pos, LockDal.GetLock(t, c));
    LockCall(t, AsLockException(run.result), run.invocations)
  }

  /** What `retry` makes of lock-table invocations: a returned value is
      always the table's answer, and the first invocation settles the call
      when it completes or fails with anything but NetworkException. */
  lemma DalRetryOutcome<T>(faults: nat -> Option<Exn>, pos: nat, value: T)
    ensures var run := Retry(DefaultMaxRetries, DefaultWaitTimeInSeconds, DalBlock(faults, pos, value));
      && (run.result.Returned? ==> run.result.value == value)
      && (faults(pos).None? ==> run.result == Returned(value) && run.invocations == 1)
      && (faults(pos).Some? && faults(pos) != Some(NetworkException) ==>
            run.result == Threw(faults(pos).value) && run.invocations == 1)
  {
    var block := DalBlock(faults, pos, value);
    RetryTrace(DefaultMaxRetries, DefaultWaitTimeInSeconds, block);
    assert block(0) == DalAttempt(faults(pos), value);
    if !IsNetworkFailure(block(0)) {
      RetryStopsAtFirstNonNetworkOutcome(DefaultMaxRetries, DefaultWaitTimeInSeconds, block, 0);
    }
    var run := Retry(DefaultMaxRetries, DefaultWaitTimeInSeconds, block);
    var last := run.invocations - 1;
    assert block(last) == DalAttempt(faults(pos + last), value);
  }

  /** A non-network failure of the lock table surfaces as LockException
      after a single invocation and leaves the table unchanged; a first
      invocation that completes settles each call after one invocation. */
  lemma LockCallsAfterFirstInvocation(t: LockDal.LockTable, faults: nat -> Option<Exn>, pos: nat, c: int)
    ensures faults(pos).None? ==>
      && GetLock(t, faults, pos, c) == LockCall(t, Returned(LockDal.GetLock(t, c)), 1)
      && SetLock(t, faults, pos, c) == LockCall(LockDal.SetLock(t, c), Returned(()), 1)
      && ReleaseLock(t, faults, pos, c) == LockCall(LockDal.ReleaseLock(t, c), Returned(()), 1)
    ensures faults(pos).Some? && faults(pos) != Some(NetworkException) ==>
      && GetLock(t, faults, pos, c) == LockCall(t, Threw(LockException), 1)
      && SetLock(t, faults, pos, c) == LockCall(t, Threw(LockException), 1)
      && ReleaseLock(t, faults, pos, c) == LockCall(t, Threw(LockException), 1)
  {
    DalRetryOutcome(faults, pos, LockDal.GetLock(t, c));
    DalRetryOutcome(faults, pos, ());
  }
}

=== FILE: models.dfy ===
/** The records the billing core reads and writes: invoices, customers and
    customer locks. Money amounts are opaque: the core never computes with
    them, it only copies them. */
module Models {

  datatype InvoiceStatus = Pending | Paid | Failed

  /** A currency's name, as stored in the currency column. */
  type CurrencyCode = string

  /** `value` stands for the source's BigDecimal; nothing here does arithmetic on it. */
  datatype Money = Money(value: int, currency: CurrencyCode)

  datatype Invoice = Invoice(id: int, customerId: int, amount: Money, status: InvoiceStatus)

  datatype Customer = Customer(id: int, currency: CurrencyCode)

  /** One row of the lock table: "a charge for this customer is in flight". */
  datatype Lock = Lock(id: int, customerId: int)
}

=== FILE: resiliency.dfy ===
/** The bounded retry combinator of `resiliency.kt`.

    The block passed to `retry` is modelled by what each of its invocations
    does: `block(i)` is the outcome of the i-th invocation (counting from 0).
    `Thread.sleep` becomes a recorded sleep, in milliseconds. */
module Resiliency {
  import opened Exceptions

  /** Default number of invocations of `retry`. */
  const DefaultMaxRetries: int := 3
  /** Default wait between two invocations, in seconds. */
  const DefaultWaitTimeInSeconds: int := 5

  /** The trace of one `retry` call: how it ended, how many times the block
      ran, and the sleeps (in ms) made between invocations. */
  datatype RetryRun<+T> = RetryRun(result: Outcome<T>, invocations: nat, sleeps: seq<int>)

  /** The only exception kind `retry` retries on. */
  predicate IsNetworkFailure<T>(o: Outcome<T>) {
    o.Threw? && o.error.NetworkException?
  }

  /** `retry(maxRetries, waitTimeInSeconds, block)`. The precondition keeps
      out `maxRetries <= 0`, for which the source's 32-bit counter only meets
      the bound after wrapping around. A negative wait makes the first
      `Thread.sleep` throw IllegalArgumentException inside the `try`; it is
      not a NetworkException, so `retry` rethrows it before the second
      invocation. */
  function Retry<T>(maxRetries: int, waitTimeInSeconds: int, block: nat -> Outcome<T>): (r: RetryRun<T>)
    requires maxRetries >= 1
    ensures 1 <= r.invocations <= maxRetries
    ensures |r.sleeps| == r.invocations - 1
    ensures forall k :: 0 <= k < |r.sleeps| ==> r.sleeps[k] == waitTimeInSeconds * 1000
    ensures waitTimeInSeconds < 0 ==> r.invocations == 1
    ensures !IsNetworkFailure(r.result)
  {
    RetryLoop(maxRetries, waitTimeInSeconds * 1000, block, 0)
  }

  /** The `while (true)` loop of `retry`, entered with `retries` network
      failures already counted; the next invocation is invocation `retries`,
      preceded by a sleep unless it is the first. A sleep for a negative
      time throws before the block runs. */
  function RetryLoop<T>(maxRetries: int, waitMs: int, block: nat -> Outcome<T>, retries: nat): (r: RetryRun<T>)
    requires retries < maxRetries
    ensures 1 <= r.invocations && retries <= r.invocations <= maxRetries
    ensures r.invocations == retries ==> waitMs < 0 && r.result == Threw(IllegalArgumentException)
    ensures |r.sleeps| == r.invocations - retries - (if retries == 0 then 1 else 0)
    ensures forall k :: 0 <= k < |r.sleeps| ==> r.sleeps[k] == waitMs
    ensures waitMs < 0 ==> r.invocations <= if retries == 0 then 1 else retries
    ensures !IsNetworkFailure(r.result)
    decreases maxRetries - retries
  {
    if retries > 0 && waitMs < 0 then RetryRun(Threw(IllegalArgumentException), retries, [])
    else
      var sleep := if retries > 0 then [waitMs] else [];
      match block(retries)
      case Returned(v) => RetryRun(Returned(v), retries + 1, sleep)
      case Threw(e) =>
        if !e.NetworkException? then RetryRun(Threw(e), retries + 1, sleep)
        else if retries + 1 == maxRetries then
          RetryRun(Threw(ExternalServiceNotAvailableException), retries + 1, sleep)
        else
          var rest := RetryLoop(maxRetries, waitMs, block, retries + 1);
          RetryRun(rest.result, rest.invocations, sleep + rest.sleeps)
  }

  /** Every invocation but the last one threw NetworkException; the last one
      either decided the result (a value or any other exception, passed on
      unchanged) or was a network failure, which becomes
      ExternalServiceNotAvailableException when it was the `maxRetries`-th,
      and otherwise was followed by a sleep for a negative time. */
  lemma {:induction false} RetryLoopTrace<T>(maxRetries: int, waitMs: int, block: nat -> Outcome<T>, retries: nat)
    requires retries < maxRetries
    requires retries > 0 ==> IsNetworkFailure(block(retries - 1))
    ensures var r := RetryLoop(maxRetries, waitMs, block, retries);
      && (forall i :: retries <= i < r.invocations - 1 ==> IsNetworkFailure(block(i)))
      && (!IsNetworkFailure(block(r.invocations - 1)) ==> r.result == block(r.invocations - 1))
      && (IsNetworkFailure(block(r.invocations - 1)) ==>
            if r.invocations == maxRetries then r.result == Threw(ExternalServiceNotAvailableException)
            else waitMs < 0 && r.result == Threw(IllegalArgumentException))
    decreases maxRetries - retries
  {
    if !(retries > 0 && waitMs < 0) && IsNetworkFailure(block(retries)) && retries + 1 < maxRetries {
      RetryLoopTrace(maxRetries, waitMs, block, retries + 1);
    }
  }

  /** The whole behaviour of `retry` as one statement about its trace. */
  lemma RetryTrace<T>(maxRetries: int, waitTimeInSeconds: int, block: nat -> Outcome<T>)
    requires maxRetries >= 1
    ensures var r := Retry(maxRetries, waitTimeInSeconds, block);
      && (forall i :: 0 <= i < r.invocations - 1 ==> IsNetworkFailure(block(i)))
      && (!IsNetworkFailure(block(r.invocations - 1)) ==> r.result == block(r.invocations - 1))
      && (IsNetworkFailure(block(r.invocations - 1)) ==>
            if r.invocations == maxRetries then r.result == Threw(ExternalServiceNotAvailableException)
            else waitTimeInSeconds < 0 && r.invocations == 1 && r.result == Threw(IllegalArgumentException))
  {
    RetryLoopTrace(maxRetries, waitTimeInSeconds * 1000, block, 0);
  }

  /** If the block throws NetworkException k times and then returns a value
      or throws anything else, with k < maxRetries, `retry` passes that
      outcome on unchanged after exactly k+1 invocations, unless a retry was
      needed and the wait is negative: then the first sleep throws. */
  lemma RetryStopsAtFirstNonNetworkOutcome<T>(maxRetries: int, waitTimeInSeconds: int, block: nat -> Outcome<T>, k: nat)
    requires 0 <= k < maxRetries
    requires forall i :: 0 <= i < k ==> IsNetworkFailure(block(i))
    requires !IsNetworkFailure(block(k))
    ensures k == 0 || waitTimeInSeconds >= 0 ==>
      Retry(maxRetries, waitTimeInSeconds, block).result == block(k) &&
      Retry(maxRetries, waitTimeInSeconds, block).invocations == k + 1
    ensures k > 0 && waitTimeInSeconds < 0 ==>
      Retry(maxRetries, waitTimeInSeconds, block).result == Threw(IllegalArgumentException) &&
      Retry(maxRetries, waitTimeInSeconds, block).invocations == 1
  {
    RetryTrace(maxRetries, waitTimeInSeconds, block);
  }

  /** If the block throws NetworkException on maxRetries consecutive
      invocations, `retry` throws ExternalServiceNotAvailableException after
      exactly maxRetries invocations and maxRetries - 1 sleeps; with a
      negative wait and room for a retry, the first sleep throws instead. */
  lemma RetryExhaustion<T>(maxRetries: int, waitTimeInSeconds: int, block: nat -> Outcome<T>)
    requires maxRetries >= 1
    requires forall i :: 0 <= i < maxRetries ==> IsNetworkFailure(block(i))
    ensures waitTimeInSeconds >= 0 || maxRetries == 1 ==>
      Retry(maxRetries, waitTimeInSeconds, block).result == Threw(ExternalServiceNotAvailableException) &&
      Retry(maxRetries, waitTimeInSeconds, block).invocations == maxRetries &&
      |Retry(maxRetries, waitTimeInSeconds, block).sleeps| == maxRetries - 1
    ensures waitTimeInSeconds < 0 && maxRetries > 1 ==>
      Retry(maxRetries, waitTimeInSeconds, block).result == Threw(IllegalArgumentException) &&
      Retry(maxRetries, waitTimeInSeconds, block).invocations == 1 &&
      Retry(maxRetries, waitTimeInSeconds, block).sleeps == []
  {
    RetryTrace(maxRetries, waitTimeInSeconds, block);
  }

  /** `retry` returns a value exactly when, within the first maxRetries
      invocations, the block returns after nothing but network failures,
      and no sleep before that invocation was for a negative time. */
  lemma RetryReturnsIff<T>(maxRetries: int, waitTimeInSeconds: int, block: nat -> Outcome<T>)
    requires maxRetries >= 1
    ensures Retry(maxRetries, waitTimeInSeconds, block).result.Returned? <==>
      exists k :: 0 <= k < maxRetries && block(k).Returned? && (k == 0 || waitTimeInSeconds >= 0) &&
        forall i :: 0 <= i < k ==> IsNetworkFailure(block(i))
  {
    RetryTrace(maxRetries, waitTimeInSeconds, block);
    var r := Retry(maxRetries, waitTimeInSeconds, block);
    if r.result.Returned? {
      assert block(r.invocations - 1).Returned?;
    } else if exists k :: (0 <= k < maxRetries && block(k).Returned? && (k == 0 || waitTimeInSeconds >= 0) &&
        forall i :: 0 <= i < k ==> IsNetworkFailure(block(i))) {
      var k :| 0 <= k < maxRetries && block(k).Returned? && (k == 0 || waitTimeInSeconds >= 0) &&
        forall i :: 0 <= i < k ==> IsNetworkFailure(block(i));
      RetryStopsAtFirstNonNetworkOutcome(maxRetries, waitTimeInSeconds, block, k);
    }
  }
}

=== FILE: scheduler.dfy ===
/** `InvoiceBillingScheduler.kt`: the delay until the next billing pass,
    `schedule`, and `chargeMonthlyInvoicesTask`, which runs a pass and schedules the next one.

    The clock is a parameter: the two `LocalDateTime.now()` reads of one
    delay calculation are taken to return the same instant `now`. The
    executor is reduced to what `schedule` hands it: a delay in
    milliseconds, or nothing when the calculation threw. */
module InvoiceBillingScheduler {
  import opened Exceptions
  import opened Calendar
  import AntaeusDal
  import opened BillingService

  const ShutdownTime: int := 20
  const ChargeIterationMinutes: int := 30
  const SecondsInMinute: int := 60
  const SecondsToMilliseconds: int := 1000

  /** The delay on the first of the month, between two passes. */
  const HalfHourInMilliseconds: int := ChargeIterationMinutes * SecondsInMinute * SecondsToMilliseconds

  /** A delay calculation: the delay or the exception it threw, and how many
      times it ran `checkIfFailedOrPendingInvoicesExist`. */
  datatype DelayCalc = DelayCalc(delay: Outcome<int>, checksRun: nat)

  /** What `schedule` did: the delay the billing task was armed with, or the error
      it logged instead, and the checks the calculation ran. */
  datatype Scheduled = Scheduled(armed: Option<int>, loggedError: Option<Exn>, checksRun: nat)

  /** A call chained on the result of the previous one: an exception
      thrown earlier propagates, and the call is not made. */
  function ThenWithDayOfMonth(o: Outcome<LocalDateTime>, d: int): (r: Outcome<LocalDateTime>)
    requires o.Returned? ==> Valid(o.value)
    ensures r.Returned? ==> Valid(r.value)
    ensures o.Threw? ==> r == o
  {
    if o.Threw? then Threw(o.error) else WithDayOfMonth(o.value, d)
  }

  function ThenWithHour(o: Outcome<LocalDateTime>, h: int): (r: Outcome<LocalDateTime>)
    requires o.Returned? ==> Valid(o.value)
    ensures r.Returned? ==> Valid(r.value)
    ensures o.Threw? ==> r == o
  {
    if o.Threw? then Threw(o.error) else WithHour(o.value, h)
  }

  /** The first of the next month at 01:00, built as the source builds it:
      `withMonth(month + 1).withDayOfMonth(1).withHour(1)`, with no change
      of year. */
  function NextBillingAsWritten(now: LocalDateTime): (r: Outcome<LocalDateTime>)
    requires Valid(now)
    ensures r.Returned? ==> Valid(r.value)
  {
    ThenWithHour(ThenWithDayOfMonth(WithMonth(now, now.month + 1), 1), 1)
  }

  /** The next-month rule: milliseconds from `now` pinned to 01:00 to the
      first of the next month at 01:00. When that target is 01:00 on a
      later day at the same minute, second and nanosecond as `now`, the
      delay is a whole number of days. */
  function NextMonthDelay(now: LocalDateTime, next: Outcome<LocalDateTime>): (r: Outcome<int>)
    requires Valid(now)
    requires next.Returned? ==> Valid(next.value)
    ensures next.Threw? ==> r == Threw(next.error)
    ensures next.Returned? ==> r.Returned?
    ensures next.Returned? && next.value.hour == 1 && next.value.minute == now.minute &&
            next.value.second == now.second && next.value.nano == now.nano ==>
      r == Returned((DayNumber(next.value.year, next.value.month, next.value.day)
                     - DayNumber(now.year, now.month, now.day)) * MillisPerDay)
  {
    if next.Threw? then Threw(next.error)
    else
      var from := now.(hour := 1);
      if next.value.hour == 1 && next.value.minute == now.minute &&
         next.value.second == now.second && next.value.nano == now.nano then
        BetweenSameTimeOfDay(from, next.value);
        Returned(BetweenMillis(from, next.value))
      else Returned(BetweenMillis(from, next.value))
  }

  /** `calculateSchedulerDelay()` as written: the first of the month gives
      the half hour between passes; the second runs the check and falls
      through; any other day uses the next-month rule, which throws in
      December. */
  function CalculateSchedulerDelayAsWritten(now: LocalDateTime): (r: DelayCalc)
    requires Valid(now)
    ensures r.checksRun == (if now.day == 2 then 1 else 0)
    ensures now.day == 1 ==> r.delay == Returned(1_800_000)
    ensures r.delay.Threw? ==> r.delay.error == DateTimeException
  {
    if now.day == 1 then DelayCalc(Returned(HalfHourInMilliseconds), 0)
    else DelayCalc(NextMonthDelay(now, NextBillingAsWritten(now)), if now.day == 2 then 1 else 0)
  }

  /** The first of the next month at 01:00, rolling over into the next year
      after December (`plusMonths(1)` in place of `withMonth(month + 1)`). */
  function NextBilling(now: LocalDateTime): (r: Outcome<LocalDateTime>)
    requires Valid(now)
    ensures r.Returned? ==> Valid(r.value)
  {
    ThenWithHour(ThenWithDayOfMonth(PlusOneMonth(now), 1), 1)
  }

  /** `calculateSchedulerDelay()` with the year rollover the next-month rule
      evidently intends; otherwise as written. */
  function CalculateSchedulerDelay(now: LocalDateTime): (r: DelayCalc)
    requires Valid(now)
    ensures r.checksRun == (if now.day == 2 then 1 else 0)
    ensures now.day == 1 ==> r.delay == Returned(1_800_000)
    ensures r.delay.Threw? ==> r.delay.error == DateTimeException
  {
    if now.day == 1 then DelayCalc(Returned(HalfHourInMilliseconds), 0)
    else DelayCalc(NextMonthDelay(now, NextBilling(now)), if now.day == 2 then 1 else 0)
  }

  /** `schedule()` given the outcome of the delay calculation: arm the billing task
      with the delay, or catch the exception, log it and arm nothing. */
  function ScheduleWith(computed: DelayCalc): (r: Scheduled)
    ensures r.armed.Some? <==> r.loggedError.None?
    ensures r.armed.Some? <==> computed.delay.Returned?
    ensures r.armed.Some? ==> r.armed.value == computed.delay.value
    ensures r.loggedError.Some? ==> r.loggedError.value == computed.delay.error
    ensures r.checksRun == computed.checksRun
  {
    if computed.delay.Returned? then Scheduled(Some(computed.delay.value), None, computed.checksRun)
    else Scheduled(None, Some(computed.delay.error), computed.checksRun)
  }

  /** `schedule()` as written. The first of the month re-arms for half an
      hour later; any other day before December re-arms for the whole days
      left in the month, up to the first of the next month; any other day
      of December arms nothing and logs the DateTimeException. */
  function ScheduleAsWritten(now: LocalDateTime): (r: Scheduled)
    requires Valid(now)
    ensures r.checksRun == (if now.day == 2 then 1 else 0)
    ensures now.day == 1 ==> r.armed == Some(HalfHourInMilliseconds) && r.loggedError == None
    ensures now.day != 1 && now.month < 12 ==>
      r.armed == Some(DaysLeftInMonth(now) * MillisPerDay) && r.loggedError == None
    ensures now.day != 1 && now.month == 12 ==> r.armed == None && r.loggedError == Some(DateTimeException)
    ensures r.armed.Some? ==> 0 < r.armed.value <= 31 * MillisPerDay
  {
    var computed := CalculateSchedulerDelayAsWritten(now);
    if now.day != 1 && now.month < 12 then
      NextMonthRuleBeforeDecember(now);
      ScheduleWith(computed)
    else ScheduleWith(computed)
  }

  /** `schedule()` with the corrected delay calculation: every day but the
      first of the month re-arms for the whole days left in the month,
      December included; only the last representable December logs the
      DateTimeException instead. */
  function Schedule(now: LocalDateTime): (r: Scheduled)
    requires Valid(now)
    ensures r.checksRun == (if now.day == 2 then 1 else 0)
    ensures now.day == 1 ==> r.armed == Some(HalfHourInMilliseconds) && r.loggedError == None
    ensures now.day != 1 && !(now.month == 12 && now.year == MaxYear) ==>
      r.armed == Some(DaysLeftInMonth(now) * MillisPerDay) && r.loggedError == None
    ensures now.day != 1 && now.month == 12 && now.year == MaxYear ==>
      r.armed == None && r.loggedError == Some(DateTimeException)
    ensures r.armed.Some? ==> 0 < r.armed.value <= 31 * MillisPerDay
  {
    var computed := CalculateSchedulerDelay(now);
    if now.day != 1 then
      CorrectedDelayRunsToNextMonth(now);
      ScheduleWith(computed)
    else ScheduleWith(computed)
  }

  /** One firing of `chargeMonthlyInvoicesTask`: the billing pass, and the
      scheduling of the next firing, which happens only when the pass did
      not throw. */
  datatype Firing = Firing(pass: Step, next: Option<Scheduled>)

  /** `chargeMonthlyInvoicesTask` as written: a pass, then `schedule()`. */
  function ChargeMonthlyInvoicesTask(st: Billing, env: Env, now: LocalDateTime): (r: Firing)
    requires AntaeusDal.InvoicesKeyed(st.invoices)
    requires Valid(now)
    ensures r.next.Some? <==> r.pass.escaped.None?
    ensures r.next.Some? ==> r.next.value == ScheduleAsWritten(now)
    ensures r.pass.escaped.Some? ==> r.pass.escaped == Some(LockException)
    ensures AntaeusDal.InvoicesKeyed(r.pass.state.invoices)
  {
    var pass := ChargeCustomersInvoices(st, env);
    Firing(pass, if pass.escaped.None? then Some(ScheduleAsWritten(now)) else None)
  }

  /** The task with the corrected `schedule()`. */
  function ChargeMonthlyInvoicesTaskCorrected(st: Billing, env: Env, now: LocalDateTime): (r: Firing)
    requires AntaeusDal.InvoicesKeyed(st.invoices)
    requires Valid(now)
    ensures r.pass == ChargeMonthlyInvoicesTask(st, env, now).pass
    ensures r.next.Some? <==> r.pass.escaped.None?
    ensures r.next.Some? ==> r.next.value == Schedule(now)
  {
    var pass := ChargeCustomersInvoices(st, env);
    Firing(pass, if pass.escaped.None? then Some(Schedule(now)) else None)
  }

  /** The days from `now` to the first of the next month, `now` included. */
  function DaysLeftInMonth(now: LocalDateTime): int
    requires Valid(now)
  {
    DaysInMonth(now.year, now.month) - now.day + 1
  }

  /** Outside the first of the month and before December, the delay runs
      from `now` to 01:00 on the first of the next month, both pinned to
      01:00, so the time of day cancels: whole days, at least one and at
      most 31. */
  lemma NextMonthRuleBeforeDecember(now: LocalDateTime)
    requires Valid(now)
    requires now.day != 1 && now.month < 12
    ensures CalculateSchedulerDelayAsWritten(now).delay == Returned(DaysLeftInMonth(now) * MillisPerDay)
    ensures 0 < DaysLeftInMonth(now) * MillisPerDay <= 31 * MillisPerDay
  {
    var target := now.(month := now.month + 1, day := 1, hour := 1);
    assert NextBillingAsWritten(now) == Returned(target);
    BetweenSameTimeOfDay(now.(hour := 1), target);
  }

  /** The delay is armed from the moment `schedule()` runs, so, on a
      timeline without time zones, the billing task fires on the first of
      the next month at the time of day of `now`, which is in the hour 01
      only when `now` is. */
  lemma FiresAtCurrentTimeOfDay(now: LocalDateTime)
    requires Valid(now)
    requires now.day != 1 && now.month < 12
    ensures ScheduleAsWritten(now).armed.Some?
    ensures EpochNanos(now) + ScheduleAsWritten(now).armed.value * NanosPerMilli ==
      EpochNanos(now.(month := now.month + 1, day := 1))
    ensures (EpochNanos(now) + ScheduleAsWritten(now).armed.value * NanosPerMilli ==
             EpochNanos(now.(month := now.month + 1, day := 1, hour := 1))) <==> now.hour == 1
  {
    var days := DaysLeftInMonth(now);
    var first := now.(month := now.month + 1, day := 1);
    assert ScheduleAsWritten(now).armed == Some(days * MillisPerDay);
    assert DaysBeforeMonth(now.year, now.month + 1) == DaysBeforeMonth(now.year, now.month) + DaysInMonth(now.year, now.month);
    ShiftByWholeDays(now, first, days);
    assert EpochNanos(first) - EpochNanos(first.(hour := 1)) == (now.hour - 1) * 3_600_000_000_000;
  }

  /** December, as written: a pass that completes on any day but the first
      runs the delay calculation, `withMonth(13)` throws, and `schedule()`
      logs the DateTimeException and arms nothing, so no pass runs again
      until `schedule()` is called anew at the next start of the process. */
  lemma DecemberIsNotRearmed(st: Billing, env: Env, now: LocalDateTime)
    requires AntaeusDal.InvoicesKeyed(st.invoices)
    requires Valid(now)
    requires now.day != 1 && now.month == 12
    requires ChargeCustomersInvoices(st, env).escaped.None?
    ensures CalculateSchedulerDelayAsWritten(now).delay == Threw(DateTimeException)
    ensures ChargeMonthlyInvoicesTask(st, env, now).next ==
      Some(Scheduled(None, Some(DateTimeException), if now.day == 2 then 1 else 0))
  {
  }

  /** December, corrected: a pass that completes re-arms the task for the
      whole days up to the first of January. */
  lemma CorrectedTaskRearmsInDecember(st: Billing, env: Env, now: LocalDateTime)
    requires AntaeusDal.InvoicesKeyed(st.invoices)
    requires Valid(now)
    requires now.day != 1 && now.month == 12 && now.year < MaxYear
    requires ChargeCustomersInvoices(st, env).escaped.None?
    ensures ChargeMonthlyInvoicesTaskCorrected(st, env, now).next ==
      Some(Scheduled(Some((31 - now.day + 1) * MillisPerDay), None, if now.day == 2 then 1 else 0))
  {
    assert DaysInMonth(now.year, 12) == 31;
    assert Schedule(now).armed == Some((31 - now.day + 1) * MillisPerDay);
  }

  /** The corrected rule in December: the first of January of the next
      year, 31 - day + 1 days ahead. */
  lemma CorrectedDecember(now: LocalDateTime)
    requires Valid(now)
    requires now.day != 1 && now.month == 12 && now.year < MaxYear
    ensures CalculateSchedulerDelay(now).delay == Returned(DaysLeftInMonth(now) * MillisPerDay)
  {
    var target := now.(year := now.year + 1, month := 1, day := 1, hour := 1);
    assert NextBilling(now) == Returned(target);
    BetweenSameTimeOfDay(now.(hour := 1), target);
    DaysBeforeNextYear(now.year);
    MonthsFillTheYear(now.year);
  }

  /** December, corrected: on a timeline without time zones, the task
      fires on the first of January at the time of day of `now`. */
  lemma CorrectedFiresAtCurrentTimeOfDay(now: LocalDateTime)
    requires Valid(now)
    requires now.day != 1 && now.month == 12 && now.year < MaxYear
    ensures Schedule(now).armed.Some?
    ensures EpochNanos(now) + Schedule(now).armed.value * NanosPerMilli ==
      EpochNanos(now.(year := now.year + 1, month := 1, day := 1))
  {
    var days := DaysLeftInMonth(now);
    assert Schedule(now).armed == Some(days * MillisPerDay);
    DaysBeforeNextYear(now.year);
    MonthsFillTheYear(now.year);
    ShiftByWholeDays(now, now.(year := now.year + 1, month := 1, day := 1), days);
  }

  /** With the year rollover, every day but the first of the month is
      scheduled up to the first of the next month, December included; only
      the last representable December cannot be. */
  lemma CorrectedDelayRunsToNextMonth(now: LocalDateTime)
    requires Valid(now)
    requires now.day != 1
    ensures !(now.month == 12 && now.year == MaxYear) ==>
      CalculateSchedulerDelay(now).delay == Returned(DaysLeftInMonth(now) * MillisPerDay)
    ensures !(now.month == 12 && now.year == MaxYear) ==>
      0 < DaysLeftInMonth(now) * MillisPerDay <= 31 * MillisPerDay
    ensures now.month == 12 && now.year == MaxYear ==>
      CalculateSchedulerDelay(now).delay == Threw(DateTimeException)
  {
    if now.month < 12 {
      NextMonthRuleBeforeDecember(now);
      CorrectionAgreesBeforeDecember(now);
    } else if now.year < MaxYear {
      CorrectedDecember(now);
    }
  }

  /** The correction changes nothing before December. */
  lemma CorrectionAgreesBeforeDecember(now: LocalDateTime)
    requires Valid(now)
    requires now.month < 12
    ensures CalculateSchedulerDelay(now) == CalculateSchedulerDelayAsWritten(now)
  {
  }

  /** On the first of the month every completed pass re-arms the billing task for
      half an hour later, without running the check. */
  lemma FirstOfMonthRepeatsEveryHalfHour(st: Billing, env: Env, now: LocalDateTime)
    requires AntaeusDal.InvoicesKeyed(st.invoices)
    requires Valid(now) && now.day == 1
    requires ChargeCustomersInvoices(st, env).escaped.None?
    ensures ChargeMonthlyInvoicesTask(st, env, now).next == Some(Scheduled(Some(1_800_000), None, 0))
  {
  }
}
